=== FILE: README.md ===
# Vertical shooter core in Dafny

This project models the per-frame simulation of a browser vertical
auto-scrolling shooter. The player climbs a fixed-width lane, firing
upwards at barrel monsters, giant melee monsters and UFO turrets. It models:

- the entities of `gameObjects.js`: rectangles, the player, bullets,
  enemies, obstacles and particles;
- the rules of `GameEngine` in `gameEngine.js`: the frame clock, the
  state machine, level pre-generation, enemy activation, the collision
  pass with scoring, cleanup, win/lose evaluation, the spawn-position
  search and the HUD figures;
- the `Camera` of `camera.js`;
- `SpriteAnimation` and `BackgroundManager` of `imageLoader.js`.

Everything is pure:

- Entities are immutable datatypes and every step is a function on them.
- Lists are `seq`s.
- Positions and seconds are `real`.
- Millisecond clock readings, health, damage and score are `int`.

What the source reads from outside becomes a parameter:

- Every `CONFIG` constant the core reads is a field of `Settings.Config`.
- Each `Date.now()` reading is a parameter `now`. A collision pass and a frame each use one reading.
- The frame timestamp is a parameter `currentTime`.
- The input direction is a parameter `movement`.
- Every `Math.random()` result is a draw function:
  - `Spawning.Draws` gives row `k`, call `i`;
  - `FindValidSpawnPosition` takes a draw sequence.
- Square roots in distance tests are replaced by comparisons of squares.
- The HUD's `showScreenShake()` calls are counted in `Game.shakes`.

Files, one module each:

| file | module | models |
|---|---|---|
| common.dfy | `Common` | `Option`, min/max, an order-preserving `Filter`, the `Lost` count of targets that died |
| settings.dfy | `Settings` | the configuration record and level lookup |
| animation.dfy | `Animation` | `SpriteAnimation` and `BackgroundManager` |
| entities.dfy | `Entities` | `gameObjects.js` |
| camera.dfy | `Viewport` | `camera.js` |
| spawning.dfy | `Spawning` | `preSpawnEnemies`, `spawnEnemies`, `findValidSpawnPosition` |
| collisions.dfy | `Collisions` | `checkCollisions` |
| engine.dfy | `Engine` | the rest of `GameEngine` |

## Behaviour of the source worth knowing

The model follows the code in each of these points.

- A player bullet keeps iterating after its first hit. The overlap test reads only the bounds, not `active`, so one bullet damages every live enemy and obstacle it overlaps in the same pass.
- The camera shake decay multiplies the current intensity by the remaining fraction each frame. The fall therefore compounds instead of being linear in time.
- `isInView` counts touching edges as in view.
- The frame delta is clamped from above only. A clock that runs backwards gives a negative step.
- `checkLevelComplete` has no fallback to the first level. A level number outside the table never completes. Level pre-generation does fall back to the first level.
- The engine never starts a camera shake, so the camera's shake stays off for the whole game.
- An enemy bullet touching the live player is destroyed even when the player is invulnerable.
- A junk pile stamped at clock reading 0 counts as never touched, because the source tests the stamp for truthiness.
- The background cycle does not end on the third cycling background. The last tenth of a level, before progress reaches 1, shows the first cycling background again, because the floored cycle index reaches 3 there and the remainder by 3 maps it to 0.
- `startGame` and `resume` both reset the frame clock and run one loop iteration at frame time 0, which simulates no time.
- Obstacle spawning is commented out in the source. `findValidSpawnPosition` is therefore reachable only from that dead code; it is modelled on its own.

## Model

| member | source | states |
|---|---|---|
| Entities.Bounds | gameObjects.js:50-57 | the box is well ordered in each axis exactly when the size in that axis is non-negative |
| Entities.CollidesSymmetric | gameObjects.js:59-67 | the overlap test is symmetric |
| Entities.CollidesIffSharedInterior | gameObjects.js:59-67 | for boxes of positive size, the test holds exactly when some point lies strictly inside both |
| Entities.TouchingIsNoCollision | gameObjects.js:59-67 | rectangles that only share an edge or a corner do not collide |
| Entities.CollisionExamples | gameObjects.js:59-67 | a one-pixel overlap collides; boxes meeting at a corner do not |
| Entities.Destroy | gameObjects.js:69-71 | the object becomes inactive, nothing else changes, and an inactive object is left as it is |
| Entities.DestroyIdempotent | gameObjects.js:69-71 | destroying twice is destroying once |
| Entities.ClampToLane | gameObjects.js:30-41 | an object no wider than the lane ends inside it; one past the left edge is placed on it, one past the right edge ends flush with it; the horizontal velocity is zeroed exactly when the object was outside; an object already inside is unchanged |
| Entities.ClampToLaneIdempotent | gameObjects.js:30-41 | clamping an already clamped object changes nothing |
| Entities.Move | gameObjects.js:16-27 | the vertical position advances by velocity times step; horizontally the body advances likewise while it stays in the lane and otherwise stops, velocity zeroed, against the edge it crossed; size and vertical velocity are kept; exactly what ends below the canvas is deactivated |
| Entities.NewBullet | gameObjects.js:239-257 | a fresh bullet is active at its firing point, records it, and is sized by its owner |
| Entities.BulletStep | gameObjects.js:259-281 | the bullet moves by its velocity and stays active exactly when it is within range and inside the margin; a surviving bullet is never further than its range from its firing point |
| Entities.NewPlayer | gameObjects.js:76-95 | a fresh player is active, at full health, vulnerable and has never fired |
| Entities.PlayerStep | gameObjects.js:97-129 | the vertical step holds unless the player would pass the bottom edge, where it rests at canvas height minus its height; a player no wider than the lane takes the horizontal step of `Move`; the invulnerability timer only counts down and ends when it reaches zero; health and fire time are untouched |
| Entities.MoveLeft | gameObjects.js:179-182 | velocity is minus the move speed and the direction is left; nothing else changes |
| Entities.MoveRight | gameObjects.js:184-187 | velocity is the move speed and the direction is right; nothing else changes |
| Entities.StopMoving | gameObjects.js:189-191 | horizontal velocity becomes zero and nothing else changes |
| Entities.AutoMove | gameObjects.js:194-196 | vertical velocity becomes half the move speed, upwards |
| Entities.Shoot | gameObjects.js:198-215 | a bullet comes out exactly when the fire interval has passed, and then the fire time is now; the bullet flies straight up at bullet speed, is player-owned and is centred on the player's top edge whatever the player's velocity |
| Entities.PlayerTakeDamage | gameObjects.js:217-230 | an invulnerable player is refused and unchanged; otherwise the hit lands, health is floored at zero, invulnerability starts, and the player dies exactly when the damage reaches its health |
| Entities.LethalHitClampsAtZero | gameObjects.js:217-230 | a hit for 5 at 1 health leaves 0 health and a dead player |
| Entities.SecondHitIsRefused | gameObjects.js:217-230 | a second hit straight after the first is refused and changes nothing |
| Entities.HitLandsAfterWindow | gameObjects.js:97-129 | once the timer runs out, the next hit lands |
| Entities.Heal | gameObjects.js:232-234 | health becomes the smaller of the maximum and health plus amount, so it never passes the maximum |
| Entities.NewEnemy | gameObjects.js:303-312 | a fresh enemy is active, invulnerable, at full health and has never attacked |
| Entities.CheckInvincibility | gameObjects.js:315-328 | without a live player the enemy is invulnerable; otherwise it is invulnerable exactly when farther than its distance |
| Entities.InvincibilityIsMemoryless | gameObjects.js:315-328 | the result does not depend on the previous flag, so there is no hysteresis |
| Entities.InvincibilityThresholdExample | gameObjects.js:315-328 | 1801 px away the enemy is invulnerable; 1799 px away it is not |
| Entities.FartherThanMatchesDistance | gameObjects.js:322-327 | the comparison of squares agrees with the square-root distance test |
| Entities.EnemyStep | gameObjects.js:366-387 | all three kinds take the vertical step by velocity and, when no wider than the lane, the horizontal step of `Move`, then stand still; they stay in the lane, leave play below the canvas, and recompute invulnerability from the position after the step |
| Entities.EnemyTakeDamage | gameObjects.js:330-342 | an invulnerable enemy is unchanged and reports no kill; otherwise health drops by the damage, a kill is reported exactly when it reaches zero or less, and a killed enemy is inactive |
| Entities.ObstacleTakeDamage | gameObjects.js:696-705 | an indestructible obstacle never changes; otherwise health drops by the damage and a kill is reported and deactivates it exactly when it reaches zero or less |
| Entities.ParticleStep | gameObjects.js:760-768 | lifetime falls by the step in ms; the particle stays active exactly while lifetime remains |
| Entities.UpdateParticles | gameObjects.js:813-818 | the survivors are exactly the stepped particles still active |
| Entities.UpdateParticlesIsStepThenFilter | gameObjects.js:813-818 | the sweep equals stepping every particle and then filtering |
| Animation.NewAnimation | imageLoader.js:109-117 | a fresh animation plays and loops from frame 0 |
| Animation.Step | imageLoader.js:120-138 | a paused animation never changes; a tick before the last frame moves exactly one frame on, a tick past it starts a looping animation over at frame 0, and the clock restarts on every tick; a looping animation stays on a valid frame; a one-shot animation that runs past its end pins the last frame and stops |
| Animation.RunLoopStaysInRange | imageLoader.js:129-131 | over any number of updates a looping animation stays on a valid frame |
| Animation.RunWhilePausedIsIdentity | imageLoader.js:121 | any number of updates on a paused animation change nothing |
| Animation.CurrentFrame | imageLoader.js:141-145 | there is no frame exactly when the index is outside the frame list, in particular when the list is empty |
| Animation.Play | imageLoader.js:148-150 | only the playing flag changes, to on |
| Animation.Pause | imageLoader.js:153-155 | only the playing flag changes, to off, and a later update is a no-op |
| Animation.Reset | imageLoader.js:158-161 | frame and clock return to zero and the first frame shows |
| Animation.NewBackground | imageLoader.js:171-177 | level 1, offset 0, speed 50 |
| Animation.Scroll | imageLoader.js:185-193 | the offset advances by speed times step and wraps to 0 at the canvas height |
| Animation.ScrollRunStaysInRange | imageLoader.js:185-193 | over any run of non-negative steps the offset stays in [0, height) |
| Animation.SetLevel | imageLoader.js:180-182 | only the level changes |
| Animation.ResetScroll | imageLoader.js:248-250 | only the offset changes, to 0 |
| Animation.JsRem | imageLoader.js:242 | the remainder keeps the sign of the dividend, is smaller than the divisor in size, and differs from the dividend by a multiple of the divisor |
| Animation.BackgroundIndex | imageLoader.js:228-245 | 0 without a level or at progress 0, 4 from progress 1, always in 0..4 for non-negative progress, 0 in the first tenth because of the sign-keeping remainder; then 1, 2 and 3 over the thirds of [0.1, 0.9), and 1 again over [0.9, 1) |
| Animation.NegativeRatioLeavesTable | imageLoader.js:240-243 | every progress from -13/30 up to but excluding -1/6 gives index -1, outside the background table |
| Animation.NegativeRatioBandsRecur | imageLoader.js:240-243 | the same band shifted back by any whole number of 0.8 steps gives index -1 as well |
| Animation.NegativeRatioElsewhere | imageLoader.js:240-243 | between the bands a negative progress can stay in the table: -0.1 gives 0 and -0.5 gives 1 |
| Viewport.NewCamera | camera.js:3-20 | the camera starts at the origin with no target and no shake |
| Viewport.Clamp | camera.js:39-40 | the clamp lies in the range when it is non-empty, keeps values inside it, and takes the lower bound when the range is empty |
| Viewport.UpdateShake | camera.js:111-122 | the shake ends once its duration has elapsed; during it the intensity never grows and never turns negative |
| Viewport.ShakeDecayCompounds | camera.js:119 | two updates half-way through leave a quarter of the intensity |
| Viewport.Update | camera.js:28-51 | with a target, x is pinned to the clamped canvas centre and y to the clamped target, and both lie within well-ordered bounds; without one the position is unchanged |
| Viewport.SetTarget | camera.js:23-25 | only the target changes |
| Viewport.SetBounds | camera.js:54-56 | only the bounds change |
| Viewport.WorldToScreen | camera.js:59-64 | the camera position maps to the canvas centre |
| Viewport.ScreenToWorld | camera.js:67-72 | it is a right inverse of the world-to-screen transform |
| Viewport.WorldScreenRoundTrip | camera.js:59-72 | the transforms are inverse in both directions |
| Viewport.InViewIsClosedWorldOverlap | camera.js:75-81 | in view exactly when the closed rectangle meets the closed canvas rectangle around the camera |
| Viewport.InViewIncludesEdges | camera.js:75-81 | rectangles touching the canvas edge from any side count as in view |
| Viewport.StartShake | camera.js:104-108 | only the shake changes, to the given intensity, duration and start |
| Viewport.GetPosition | camera.js:125-127 | the position read back is the camera's |
| Viewport.SetPosition | camera.js:130-133 | the position read back is the one set and nothing else changes |
| Viewport.Reset | camera.js:136-143 | position, targets, shake intensity and duration are zero; later shake updates change nothing |
| Settings.LevelAt | gameEngine.js:650-651 | a level is found exactly for numbers 1 to the table length, and level n is entry n - 1 of the table |
| Settings.LevelOrFirst | gameEngine.js:377 | a missing level falls back to the first |
| Spawning.DensityKnots | gameEngine.js:405-414 | the ramp passes through 0.3, 0.7, 1.5, 2.3 and 3.0 at progress 0, 0.2, 0.5, 0.8 and 1, so it is continuous at the knots |
| Spawning.DensityOnSegment | gameEngine.js:405-414 | the density is monotone and 3.5-Lipschitz within one segment |
| Spawning.DensityMonotoneAndLipschitz | gameEngine.js:405-414 | across the whole ramp the density never falls and rises by at most 3.5 per unit of progress |
| Spawning.RowEnemyCount | gameEngine.js:392-417 | a row holds at most 2 enemies when it carries a giant and at most 3 otherwise; with draws from [0, 1) it is never negative, and from half way through the level it holds at least one |
| Spawning.RowEnemyCountMonotone | gameEngine.js:400-417 | with the same draws, a row further into the level never holds fewer enemies, following the rising density ramp |
| Spawning.RowKinds | gameEngine.js:420-428 | a row without a giant has no giant kind, and a giant row of one is the giant alone |
| Spawning.Dormant | gameEngine.js:449 | only the active flag changes, to off |
| Spawning.RowEnemies | gameEngine.js:430-451 | at most the row count, and exactly one enemy per remaining index when the draws lie in [0, 1); all inactive and invulnerable, kinds from the row's table, and each y in [-distance, -distance + 100) |
| Spawning.Row | gameEngine.js:392-451 | the row's cap, and with draws from [0, 1) exactly the row's enemy count at its progress; no giant in a non-giant row, inactive and invulnerable, y within its row band |
| Spawning.Rows | gameEngine.js:388-455 | all rows from k on are inactive and invulnerable and lie above the level's end |
| Spawning.PreSpawn | gameEngine.js:375-463 | every pre-spawned enemy is inactive and invulnerable with y strictly between the level's end and 200 px above the start; a level shorter than one spacing gets none |
| Spawning.Activate | gameEngine.js:472 | only the active flag changes, to on |
| Spawning.Wake | gameEngine.js:465-482 | the still-pending enemies are all far away and the woken ones active and near; nothing is invented |
| Spawning.SpawnEnemies | gameEngine.js:465-482 | the pending pool keeps only inactive far enemies; the active list keeps its prefix and appends active ones; no enemy is lost or duplicated |
| Spawning.ActivateAll | gameEngine.js:472-473 | activates each enemy of a list in place |
| Spawning.DormantAll | gameEngine.js:449 | deactivates each enemy of a list in place |
| Spawning.WakeIsFilter | gameEngine.js:465-482 | the woken enemies are the in-order filter of the near ones, activated; the rest is the in-order filter of the far ones |
| Spawning.WakeConserves | gameEngine.js:465-482 | what stays pending plus what woke is the pending pool as a multiset |
| Spawning.FindValidSpawnPosition | gameEngine.js:485-525 | at most 20 attempts; a found point is in range and clear of every active enemy and is the first clear candidate; none is found exactly when all 20 are blocked |
| Spawning.IsClear | gameEngine.js:505-516 | the loop answers yes exactly when no active enemy is too close |
| Collisions.Sweep | gameEngine.js:546-562 | one bullet's sweep hurts exactly the targets it hits and leaves the rest |
| Collisions.Deaths | gameEngine.js:553-556 | the number of kills reported is at most the number of targets |
| Collisions.DeathsAreLosses | gameEngine.js:546-562 | the reported kills are exactly the targets the sweep left dead |
| Collisions.StrikeEnemies | gameEngine.js:546-562 | every live enemy the bullet overlaps takes the damage, others are untouched; it hit exactly when it overlaps one; the kills are the enemies it killed; enemies only die |
| Collisions.StrikeObstacles | gameEngine.js:566-580 | the same for obstacles |
| Collisions.EnemiesOnlyDieTransitive | gameEngine.js:543-580 | the "only die, never move" relation composes |
| Collisions.ObstaclesOnlyDieTransitive | gameEngine.js:543-580 | the same for obstacles |
| Collisions.MissesPersist | gameEngine.js:543-580 | a bullet that misses everything still misses once targets have only died |
| Collisions.PlayerShot | gameEngine.js:543-580 | one bullet's turn: targets only die, the kill counts are the deaths, and the bullet ends unchanged or destroyed; non-live shots change nothing |
| Collisions.PlayerShotStops | gameEngine.js:543-580 | a live player bullet is destroyed exactly when it overlapped a live target, and is otherwise unchanged |
| Collisions.PlayerShots | gameEngine.js:543-580 | over all bullets: targets only die and the score counts are exactly the deaths, so an enemy killed earlier is skipped |
| Collisions.PlayerShotsStopBullets | gameEngine.js:543-580 | no live player bullet survives the pass overlapping a target still alive at its end |
| Collisions.PlayerShotsSkipOthers | gameEngine.js:544 | enemy bullets and spent bullets are untouched |
| Collisions.PlayerShotsSpareMisses | gameEngine.js:543-580 | a bullet overlapping nothing alive comes out untouched |
| Collisions.AtMostOneHitChain | gameEngine.js:584-635 | passes that each land at most one hit compose into one that lands at most one |
| Collisions.Wound | gameObjects.js:217-230 | one damage call lands exactly when the player is vulnerable |
| Collisions.EnemyShots | gameEngine.js:584-596 | at most one hit lands, and one lands exactly when a live enemy bullet reaches the live, vulnerable player |
| Collisions.EnemyShotsSkipOthers | gameEngine.js:584-596 | bullets that do not reach the player are untouched |
| Collisions.EnemyShotsAbsorbed | gameEngine.js:584-596 | a surviving player destroys every enemy bullet touching it, even while invulnerable |
| Collisions.Attacks | gameEngine.js:598-635 | along a contact pass at most one hit lands, and one lands exactly when the player is vulnerable and some target strikes |
| Entities.UfoCooldownIsFixed | gameObjects.js:344-351 | a UFO turret may attack exactly when 1000 ms have passed since its last attack, whatever cooldown its kind is configured with |
| Entities.AttackCooldown | gameObjects.js:349-351 | a UFO turret keeps the base cooldown of 1000 ms; the other kinds use the cooldown configured for their kind |
| Entities.ConfiguredCooldownGates | gameObjects.js:451-453 | a barrel monster, and likewise a giant (lines 553-555), may attack exactly when its configured cooldown has passed since its last attack |
| Collisions.EnemyContact | gameEngine.js:598-614 | enemies in contact whose cooldown has passed attack and restart their cooldown; the others are untouched; at most one hit lands |
| Collisions.ContactRestartsCooldown | gameEngine.js:603-605 | an enemy that attacked cannot attack again at the same instant |
| Collisions.ObstacleContact | gameEngine.js:616-635 | junk piles in contact whose 500 ms cooldown has passed strike and are stamped; the others are untouched; at most one hit lands |
| Collisions.JunkRestartsCooldown | gameEngine.js:621-623 | a pile that struck is not ready again at the same instant, except at clock reading 0 |
| Collisions.CheckCollisions | gameEngine.js:541-637 | the bullet count is kept, targets only die, and the player takes at most one hit per frame and never while invulnerable |
| Collisions.CheckCollisionsCount | gameEngine.js:541-637 | the kill and wreck counts are exactly the enemies and obstacles that died, since contact never kills a target |
| Engine.ResetGame | gameEngine.js:113-156 | start screen of level 1 at score 0 with empty lists, a fresh player, level 1 pre-spawned, and the camera centred on the start |
| Engine.StartGame | gameEngine.js:158-171 | playing, running, frame clock reset, both start times now; nothing else changes |
| Engine.RestartGame | gameEngine.js:173-199 | stopped on the start screen of level 1 at score 0 with a fresh player and level 1 pre-spawned; well formed |
| Engine.NextLevel | gameEngine.js:201-223 | the next level starts now with empty lists and a fresh pending pool; score, player and particles carry over |
| Engine.EndGame | gameEngine.js:672-684 | game over and stopped; nothing else changes |
| Engine.CompleteLevel | gameEngine.js:660-670 | only the state changes, to level complete |
| Engine.Pause | gameEngine.js:849-860 | acts only while playing |
| Engine.Resume | gameEngine.js:862-872 | acts only while paused, and restarts the frame clock |
| Engine.PauseResumeRoundTrip | gameEngine.js:849-872 | pausing then resuming gives the game back apart from the frame clock, and so does the reverse |
| Engine.FrameDelta | gameEngine.js:225-237 | the first frame simulates nothing; a step never exceeds 1/30 s and is the elapsed time below that |
| Engine.HandlePlayerInput | gameEngine.js:286-311 | a dead player is ignored; a live one steers by the input, keeps climbing, and fires exactly when the interval allows, appending one player bullet |
| Engine.StepEnemies | gameEngine.js:319-340 | only active enemies take their step |
| Engine.StepBullets | gameEngine.js:342-360 | only active bullets take their step |
| Engine.StepObstacles | gameEngine.js:362-368 | only active obstacles move |
| Engine.Advance | gameEngine.js:248-267 | the first half of the frame keeps state, score and pending pool, and never revives the player |
| Engine.Cleanup | gameEngine.js:639-643 | every list keeps only active objects, and no active object is dropped |
| Engine.CleanupKeepsOrder | gameEngine.js:639-643 | each list becomes exactly its entries at the active positions, read in increasing order, so survivors are neither reordered nor duplicated |
| Engine.CleanupIdempotent | gameEngine.js:639-643 | cleaning twice is cleaning once |
| Engine.CheckLevelComplete | gameEngine.js:645-658 | a dead player ends the game before any time check; otherwise the level completes once its time is up; a level outside the table never completes |
| Engine.CheckLevelCompleteOutcome | gameEngine.js:645-658 | in play: game over exactly when the player is dead, level complete exactly when time is up |
| Engine.WakeEnemies | gameEngine.js:270 | the pending pool stays dormant and the monster count is kept |
| Engine.Reward | gameEngine.js:553-575 | non-negative rewards never lower the score; a pass without deaths scores nothing |
| Engine.RewardPerDeath | gameEngine.js:553-575 | each further kill adds the per-enemy score and each further wreck the per-obstacle score |
| Engine.Collide | gameEngine.js:274 | the player is never revived, at most one shake is requested, and the score does not fall under non-negative rewards |
| Engine.CollideScores | gameEngine.js:553-575 | the score rises by the per-enemy score for every enemy that died in the pass and the per-obstacle score for every obstacle wrecked, and by nothing else |
| Engine.Resolve | gameEngine.js:270-277 | after activation, collisions and cleanup only live objects remain and the monster count does not grow |
| Engine.Update | gameEngine.js:245-284 | nothing happens outside play; the level and its start time are kept |
| Engine.UpdateWellformed | gameEngine.js:245-284 | a frame of play keeps the engine well formed |
| Engine.UpdateOutcome | gameEngine.js:245-284 | a frame ends in game over exactly when the player died, otherwise in level complete exactly when time is up |
| Engine.UpdateLeavesOnlyLive | gameEngine.js:245-284 | after a frame only live objects remain, at most one shake was requested, the score did not fall and monsters did not appear |
| Engine.UpdateScores | gameEngine.js:245-284 | a frame of play adds to the score exactly the per-death rewards of its collision pass |
| Engine.Frame | gameEngine.js:225-243 | a stopped loop does nothing; a running one updates with the clamped step |
| Engine.FrameWellformed | gameEngine.js:225-243 | every frame keeps the engine well formed |
| Engine.WellformedFramesAreDefined | camera.js:111-122 | in a well-formed state the shake update is defined at any time |
| Engine.FirstFrameSimulatesNothing | gameEngine.js:158-171 | the loop iteration right after starting or resuming has step 0 |
| Engine.Progress | gameEngine.js:686-708 | 0 without a level; for a positive duration, the elapsed time as a percentage of the duration, capped at 100 |
| Engine.ProgressRisesUntilFull | gameEngine.js:692-695 | until the bar is full it rises strictly with the clock |
| Engine.ProgressHalfway | gameEngine.js:692-695 | half the duration shows half the bar |
| Engine.ProgressFullIffTimeUp | gameEngine.js:686-708 | the bar is full exactly when the level-complete check fires |

## Left out

- Rendering is left out: every `draw`/`render`, `applyTransform`/`restoreTransform` and the debug overlay are canvas output.
- The UI layer, audio and raw input events are left out. The input direction reaches `HandlePlayerInput` as a parameter.
- Asset loading, asynchronous initialisation and `requestAnimationFrame` scheduling are left out, because they are I/O.
- The `setTimeout` that `levelComplete` schedules on the final level is left out. `Engine.FinalLevel` names that case, which ends the game three seconds later.
- Particles emitted by hits and explosions are left out, because they are cosmetic random effects. The particle sweep itself is modelled.
- `UFOTurret.shoot` is left out, because the engine's enemy update has its call disabled.
- `spawnObstacles` is left out, because its body is commented out.
- Several clock readings within one collision pass or one frame are collapsed into a single `now`.
- The source's player is null before the first `resetGame`. The model's player always exists.
- Floating-point rounding is not modelled. Reals are exact, including the row distance that grows by 300 per row.
- Infinite obstacle health is not modelled. Health is an `int`, and indestructible obstacles never take damage.
- Viewport.Update and Engine.Update: both require the shake update to be defined. A shake started with duration 0 would divide by zero in the source. The engine never starts one, and `Engine.WellformedFramesAreDefined` shows that the requirement holds in every well-formed state.
- Engine.Progress: it returns `None` for a level whose duration is 0, where the source divides by zero.
- Entities.EnemyStep: the horizontal position is stated only for enemies no wider than the lane. The UFO's disabled firing is not part of it.

=== FILE: animation.dfy ===
/** Frame stepping of sprite animations and of the scrolling background
    (`SpriteAnimation` and `BackgroundManager` in imageLoader.js). Images
    themselves are out of the model: a frame is named by its image key. */
module Animation {
  import opened Common

  /** `SpriteAnimation`: `frameDuration` and `lastFrameTime` are in
      milliseconds; frame updates receive seconds. */
  datatype SpriteAnimation = SpriteAnimation(
    frames: seq<string>,
    frameDuration: real,
    currentFrame: int,
    lastFrameTime: real,
    isPlaying: bool,
    loop: bool)

  /** A freshly constructed animation: first frame, playing, looping. */
  function NewAnimation(frames: seq<string>, frameDuration: real): (a: SpriteAnimation)
    ensures a.currentFrame == 0 && a.lastFrameTime == 0.0
    ensures a.isPlaying && a.loop && a.frames == frames
  {
    SpriteAnimation(frames, frameDuration, 0, 0.0, true, true)
  }

  /** Whether an update by `dt` seconds reaches the frame duration. */
  predicate Ticks(a: SpriteAnimation, dt: real)
  {
    a.lastFrameTime + dt * 1000.0 >= a.frameDuration
  }

  /** `SpriteAnimation.update(deltaTime)`. */
  function Step(a: SpriteAnimation, dt: real): (r: SpriteAnimation)
    // paused: nothing changes
    ensures !a.isPlaying ==> r == a
    // the frame list and the looping mode are never touched
    ensures r.frames == a.frames && r.loop == a.loop && r.frameDuration == a.frameDuration
    // below the frame duration only the clock advances
    ensures a.isPlaying && !Ticks(a, dt) ==>
      r == a.(lastFrameTime := a.lastFrameTime + dt * 1000.0)
    // reaching it moves at most one frame on and restarts the clock
    ensures a.isPlaying && Ticks(a, dt) ==>
      r.lastFrameTime == 0.0 &&
      (r.currentFrame == a.currentFrame + 1 || r.currentFrame == 0 || r.currentFrame == |a.frames| - 1)
    // before the last frame it moves exactly one frame on
    ensures a.isPlaying && Ticks(a, dt) && a.currentFrame + 1 < |a.frames| ==>
      r.currentFrame == a.currentFrame + 1 && r.isPlaying
    // past the last frame a looping animation starts over
    ensures a.isPlaying && Ticks(a, dt) && a.loop && a.currentFrame + 1 >= |a.frames| ==>
      r.currentFrame == 0 && r.isPlaying
    // a looping animation stays on a valid frame
    ensures a.loop && 0 <= a.currentFrame < |a.frames| ==> 0 <= r.currentFrame < |a.frames|
    // a one-shot animation that runs past its end pins the last frame and stops
    ensures a.isPlaying && Ticks(a, dt) && !a.loop && a.currentFrame + 1 >= |a.frames| ==>
      r.currentFrame == |a.frames| - 1 && !r.isPlaying
    // only running past the end of a one-shot animation stops it
    ensures r.isPlaying != a.isPlaying ==> !a.loop && a.currentFrame + 1 >= |a.frames|
  {
    if !a.isPlaying then a
    else
      var t := a.lastFrameTime + dt * 1000.0;
      if t >= a.frameDuration then
        var next := a.currentFrame + 1;
        if next >= |a.frames| then
          if a.loop then a.(currentFrame := 0, lastFrameTime := 0.0)
          else a.(currentFrame := |a.frames| - 1, lastFrameTime := 0.0, isPlaying := false)
        else a.(currentFrame := next, lastFrameTime := 0.0)
      else a.(lastFrameTime := t)
  }

  /** Several consecutive frame updates. */
  function Run(a: SpriteAnimation, dts: seq<real>): SpriteAnimation
    decreases |dts|
  {
    if |dts| == 0 then a else Run(Step(a, dts[0]), dts[1..])
  }

  /** Over any number of frames a looping animation never leaves its frame list. */
  lemma {:induction false} RunLoopStaysInRange(a: SpriteAnimation, dts: seq<real>)
    requires a.loop && 0 <= a.currentFrame < |a.frames|
    ensures 0 <= Run(a, dts).currentFrame < |a.frames|
    ensures Run(a, dts).frames == a.frames
    decreases |dts|
  {
    if |dts| > 0 {
      RunLoopStaysInRange(Step(a, dts[0]), dts[1..]);
    }
  }

  /** Once paused (or stopped at its end), no number of frames changes it. */
  lemma {:induction false} RunWhilePausedIsIdentity(a: SpriteAnimation, dts: seq<real>)
    requires !a.isPlaying
    ensures Run(a, dts) == a
    decreases |dts|
  {
    if |dts| > 0 {
      RunWhilePausedIsIdentity(Step(a, dts[0]), dts[1..]);
    }
  }

  /** `getCurrentFrame`: the current frame's image key, or nothing when the
      frame list is empty (`null`) or the index is outside it (`undefined`). */
  function CurrentFrame(a: SpriteAnimation): (r: Option<string>)
    ensures |a.frames| == 0 ==> r.None?
    ensures r.Some? <==> 0 <= a.currentFrame < |a.frames|
    ensures r.Some? ==> r.value in a.frames
  {
    if |a.frames| == 0 then None
    else if 0 <= a.currentFrame < |a.frames| then Some(a.frames[a.currentFrame])
    else None
  }

  /** `play`. */
  function Play(a: SpriteAnimation): (r: SpriteAnimation)
    ensures r.isPlaying && r.(isPlaying := a.isPlaying) == a
  {
    a.(isPlaying := true)
  }

  /** `pause`. */
  function Pause(a: SpriteAnimation): (r: SpriteAnimation)
    ensures !r.isPlaying && r.(isPlaying := a.isPlaying) == a
    ensures Step(r, 1.0) == r
  {
    a.(isPlaying := false)
  }

  /** `reset`: back to the first frame with a fresh clock; playing state kept. */
  function Reset(a: SpriteAnimation): (r: SpriteAnimation)
    ensures r.currentFrame == 0 && r.lastFrameTime == 0.0
    ensures r.(currentFrame := a.currentFrame, lastFrameTime := a.lastFrameTime) == a
    ensures |a.frames| > 0 ==> CurrentFrame(r) == Some(a.frames[0])
  {
    a.(currentFrame := 0, lastFrameTime := 0.0)
  }

  /** `BackgroundManager`: the level whose theme is shown and the vertical
      scroll offset of the repeating background. */
  datatype Background = Background(currentLevel: int, scrollOffset: real, scrollSpeed: real)

  /** A new manager: level 1, no offset, 50 pixels per second. */
  function NewBackground(): (b: Background)
    ensures b.currentLevel == 1 && b.scrollOffset == 0.0 && b.scrollSpeed == 50.0
  {
    Background(1, 0.0, 50.0)
  }

  /** `BackgroundManager.update(deltaTime)`: scroll, and restart at 0 once
      the offset reaches the background height (the canvas height). The
      excess beyond the height is dropped, not carried over. */
  function Scroll(b: Background, dt: real, canvasHeight: real): (r: Background)
    ensures r.currentLevel == b.currentLevel && r.scrollSpeed == b.scrollSpeed
    ensures canvasHeight > 0.0 && b.scrollOffset >= 0.0 && b.scrollSpeed * dt >= 0.0 ==>
      0.0 <= r.scrollOffset < canvasHeight
    ensures b.scrollOffset + b.scrollSpeed * dt < canvasHeight ==>
      r.scrollOffset == b.scrollOffset + b.scrollSpeed * dt
    ensures b.scrollOffset + b.scrollSpeed * dt >= canvasHeight ==> r.scrollOffset == 0.0
  {
    var offset := b.scrollOffset + b.scrollSpeed * dt;
    if offset >= canvasHeight then b.(scrollOffset := 0.0) else b.(scrollOffset := offset)
  }

  /** Several consecutive background updates. */
  function ScrollRun(b: Background, dts: seq<real>, canvasHeight: real): Background
    decreases |dts|
  {
    if |dts| == 0 then b else ScrollRun(Scroll(b, dts[0], canvasHeight), dts[1..], canvasHeight)
  }

  /** With non-negative frame times and speed, the offset stays inside one
      background height for ever. */
  lemma {:induction false} ScrollRunStaysInRange(b: Background, dts: seq<real>, canvasHeight: real)
    requires canvasHeight > 0.0 && 0.0 <= b.scrollOffset < canvasHeight && b.scrollSpeed >= 0.0
    requires forall i :: 0 <= i < |dts| ==> dts[i] >= 0.0
    ensures 0.0 <= ScrollRun(b, dts, canvasHeight).scrollOffset < canvasHeight
    decreases |dts|
  {
    if |dts| > 0 {
      var next := Scroll(b, dts[0], canvasHeight);
      assert b.scrollSpeed * dts[0] >= 0.0;
      ScrollRunStaysInRange(next, dts[1..], canvasHeight);
    }
  }

  /** `setLevel`. */
  function SetLevel(b: Background, level: int): (r: Background)
    ensures r.currentLevel == level && r.(currentLevel := b.currentLevel) == b
  {
    b.(currentLevel := level)
  }

  /** `reset`. */
  function ResetScroll(b: Background): (r: Background)
    ensures r.scrollOffset == 0.0 && r.(scrollOffset := b.scrollOffset) == b
  {
    b.(scrollOffset := 0.0)
  }

  /** JavaScript's `%` on integers: the remainder takes the sign of the
      dividend (Dafny's `%` is Euclidean and never negative). */
  function JsRem(a: int, b: int): (r: int)
    requires b > 0
    ensures a >= 0 ==> 0 <= r < b
    ensures a < 0 ==> -b < r <= 0
    // the remainder is congruent to the dividend
    ensures (a - r) % b == 0
  {
    if a >= 0 then
      var q := a / b;
      MultipleRem(q, b);
      assert a - a % b == q * b;
      a % b
    else
      var q := (-a) / b;
      MultipleRem(-q, b);
      assert a + (-a) % b == (-q) * b;
      -((-a) % b)
  }

  /** Sign bounds of a product with a positive factor. */
  lemma ProductBounds(d: int, b: int)
    requires b > 0
    ensures d >= 1 ==> d * b >= b
    ensures d <= -1 ==> d * b <= -b
  {
    assert d * b == (d - 1) * b + b;
    assert d * b == (d + 1) * b - b;
  }

  /** A multiple of `b` leaves no Euclidean remainder. */
  lemma MultipleRem(k: int, b: int)
    requires b > 0
    ensures (k * b) % b == 0
  {
    var q, m := (k * b) / b, (k * b) % b;
    var d := k - q;
    assert d * b == m by { assert d * b == k * b - q * b; }
    ProductBounds(d, b);
  }

  /** `getBackgroundIndex`, with the level's elapsed-time ratio
      `levelTime / (DURATION / 1000)` passed in and `hasLevel` telling
      whether `CONFIG.LEVELS[currentLevel - 1]` exists. Index 0 opens the
      level, 4 closes it, 1..3 cycle in between. */
  function BackgroundIndex(hasLevel: bool, ratio: real): (r: int)
    ensures !hasLevel ==> r == 0
    ensures hasLevel && ratio == 0.0 ==> r == 0
    ensures hasLevel && ratio >= 1.0 ==> r == 4
    ensures ratio >= 0.0 ==> 0 <= r <= 4
    // the first tenth of the level keeps the opening background, because
    // the negative cycle index is mapped to -1 by the sign-keeping `%`
    ensures hasLevel && 0.0 < ratio < 0.1 ==> r == 0
    ensures hasLevel && 0.1 <= ratio < 1.0 ==> 1 <= r <= 3
    // the three cycling backgrounds take a third of [0.1, 0.9) each, and the
    // last tenth wraps round to the first of them again
    ensures hasLevel && 0.1 <= ratio < 11.0 / 30.0 ==> r == 1
    ensures hasLevel && 11.0 / 30.0 <= ratio < 19.0 / 30.0 ==> r == 2
    ensures hasLevel && 19.0 / 30.0 <= ratio < 0.9 ==> r == 3
    ensures hasLevel && 0.9 <= ratio < 1.0 ==> r == 1
  {
    if !hasLevel then 0
    else
      var progress := Min(1.0, ratio);
      if progress == 0.0 then 0
      else if progress >= 1.0 then 4
      else
        var cycleProgress := (progress - 0.1) / 0.8;
        var cycleIndex := JsRem((cycleProgress * 3.0).Floor, 3);
        cycleIndex + 1
  }

  /** A clock reading before the level start gives a negative ratio. In the
      band -13/30 <= ratio < -1/6 the scaled cycle progress floors to -2,
      the sign-keeping `%` keeps it, and the index leaves the background
      table: the lookup yields no image and the plain level colour is drawn
      instead. */
  lemma NegativeRatioLeavesTable(ratio: real)
    requires -13.0 / 30.0 <= ratio < -1.0 / 6.0
    ensures BackgroundIndex(true, ratio) == -1
  {
    var c := (ratio - 0.1) / 0.8 * 3.0;
    assert -2.0 <= c < -1.0;
    assert c.Floor == -2;
  }

  /** The band recurs every 0.8 of ratio further back: each shift by 0.8
      moves the floored cycle progress by 3, which the remainder by 3
      undoes. */
  lemma NegativeRatioBandsRecur(ratio: real, k: nat)
    requires -13.0 / 30.0 - 0.8 * k as real <= ratio < -1.0 / 6.0 - 0.8 * k as real
    ensures BackgroundIndex(true, ratio) == -1
  {
    var c := (ratio - 0.1) / 0.8 * 3.0;
    var f := -2 - 3 * k;
    assert f as real <= c < f as real + 1.0;
    assert c.Floor == f;
    assert (-f) % 3 == 2;
  }

  /** Between the bands a negative ratio can stay inside the table: just
      below zero the index is the opening background, and at -0.5 the cycle
      has wrapped round to the first cycling background. */
  lemma NegativeRatioElsewhere()
    ensures BackgroundIndex(true, -0.1) == 0
    ensures BackgroundIndex(true, -0.5) == 1
  {
    assert (-0.1 - 0.1) / 0.8 * 3.0 == -0.75;
    assert (-0.75).Floor == -1;
    assert (-0.5 - 0.1) / 0.8 * 3.0 == -2.25;
    assert (-2.25).Floor == -3;
  }
}

=== FILE: camera.dfy ===
/** The `Camera` of camera.js: a fixed horizontal position, an immediate
    vertical follow of its target, clamping bounds, world/screen
    transforms, a visibility test and a decaying screen shake. The camera
    holds a reference to its target in the source; here the target's
    vertical position is passed to `Update`, and `hasTarget` records
    whether one was set. */
module Viewport {
  import opened Common

  datatype CameraBounds = CameraBounds(minX: real, maxX: real, minY: real, maxY: real)

  /** `intensity` in pixels, `duration` and `startTime` in milliseconds. */
  datatype Shake = Shake(intensity: real, duration: int, startTime: int)

  datatype Camera = Camera(
    x: real,
    y: real,
    targetX: real,
    targetY: real,
    hasTarget: bool,
    bounds: CameraBounds,
    shake: Shake)

  /** A point in world or screen coordinates. */
  datatype Point = Point(x: real, y: real)

  /** `new Camera()`. */
  function NewCamera(): (c: Camera)
    ensures c.x == 0.0 && c.y == 0.0 && !c.hasTarget && c.shake.intensity == 0.0
  {
    Camera(0.0, 0.0, 0.0, 0.0, false, CameraBounds(0.0, 0.0, 0.0, 0.0), Shake(0.0, 0, 0))
  }

  /** `Math.max(lo, Math.min(hi, v))`. When `lo > hi` the lower bound wins. */
  function Clamp(v: real, lo: real, hi: real): (r: real)
    ensures lo <= hi ==> lo <= r <= hi
    ensures lo <= v <= hi ==> r == v
    ensures lo > hi ==> r == lo
  {
    Max(lo, Min(hi, v))
  }

  /** Whether a shake update at `now` is defined over the reals: the source
      divides by the duration only when the elapsed time is below it, and a
      zero duration with a clock reading before the start would give an
      infinite intensity. */
  predicate ShakeDefined(s: Shake, now: int)
  {
    s.intensity <= 0.0 || now - s.startTime >= s.duration || s.duration != 0
  }

  /** `updateShake()`: zero once the duration has elapsed, otherwise scale
      by the fraction of the duration still to go. The factor applies to
      the current intensity, so the decay compounds from frame to frame. */
  function UpdateShake(s: Shake, now: int): (r: Shake)
    requires ShakeDefined(s, now)
    ensures r.duration == s.duration && r.startTime == s.startTime
    ensures s.intensity <= 0.0 ==> r == s
    ensures s.intensity > 0.0 && now - s.startTime >= s.duration ==> r.intensity == 0.0
    // during the shake the intensity never grows and never turns negative
    ensures s.intensity > 0.0 && 0 <= now - s.startTime < s.duration ==> 0.0 <= r.intensity <= s.intensity
  {
    if s.intensity > 0.0 then
      var elapsed := now - s.startTime;
      if elapsed >= s.duration then s.(intensity := 0.0)
      else
        var progress := elapsed as real / s.duration as real;
        s.(intensity := s.intensity * (1.0 - progress))
    else s
  }

  /** The decay is multiplicative per frame, not linear in time: two frames
      at the half-way point leave a quarter of the intensity, where a linear
      fall would leave half. */
  lemma ShakeDecayCompounds()
    ensures UpdateShake(UpdateShake(Shake(8.0, 100, 0), 50), 50).intensity == 2.0
  {
    assert UpdateShake(Shake(8.0, 100, 0), 50).intensity == 4.0;
  }

  /** `update(deltaTime)`: with a target, pin x to the canvas centre and
      snap y to the target, each clamped to the bounds; then the shake. */
  function Update(c: Camera, canvasWidth: real, targetY: real, now: int): (r: Camera)
    requires ShakeDefined(c.shake, now)
    ensures c.hasTarget ==>
      && r.x == Clamp(canvasWidth / 2.0, c.bounds.minX, c.bounds.maxX)
      && r.y == Clamp(targetY, c.bounds.minY, c.bounds.maxY)
      && r.targetX == canvasWidth / 2.0 && r.targetY == targetY
    ensures !c.hasTarget ==> r.x == c.x && r.y == c.y && r.targetX == c.targetX && r.targetY == c.targetY
    ensures c.hasTarget && c.bounds.minX <= c.bounds.maxX && c.bounds.minY <= c.bounds.maxY ==>
      c.bounds.minX <= r.x <= c.bounds.maxX && c.bounds.minY <= r.y <= c.bounds.maxY
    ensures r.shake == UpdateShake(c.shake, now)
    ensures r.bounds == c.bounds && r.hasTarget == c.hasTarget
  {
    var followed :=
      if c.hasTarget then
        c.(targetX := canvasWidth / 2.0, targetY := targetY,
           x := Clamp(canvasWidth / 2.0, c.bounds.minX, c.bounds.maxX),
           y := Clamp(targetY, c.bounds.minY, c.bounds.maxY))
      else c;
    followed.(shake := UpdateShake(c.shake, now))
  }

  /** `setTarget(target)`. */
  function SetTarget(c: Camera): (r: Camera)
    ensures r.hasTarget && r.(hasTarget := c.hasTarget) == c
  {
    c.(hasTarget := true)
  }

  /** `setBounds(minX, maxX, minY, maxY)`. */
  function SetBounds(c: Camera, minX: real, maxX: real, minY: real, maxY: real): (r: Camera)
    ensures r.bounds == CameraBounds(minX, maxX, minY, maxY) && r.(bounds := c.bounds) == c
  {
    c.(bounds := CameraBounds(minX, maxX, minY, maxY))
  }

  /** `worldToScreen(x, y)`: the camera position maps to the canvas centre. */
  function WorldToScreen(c: Camera, canvasWidth: real, canvasHeight: real, p: Point): (s: Point)
    ensures p == Point(c.x, c.y) ==> s == Point(canvasWidth / 2.0, canvasHeight / 2.0)
  {
    Point(p.x - c.x + canvasWidth / 2.0, p.y - c.y + canvasHeight / 2.0)
  }

  /** `screenToWorld(x, y)`: the inverse transform. */
  function ScreenToWorld(c: Camera, canvasWidth: real, canvasHeight: real, s: Point): (p: Point)
    ensures WorldToScreen(c, canvasWidth, canvasHeight, p) == s
  {
    Point(s.x + c.x - canvasWidth / 2.0, s.y + c.y - canvasHeight / 2.0)
  }

  /** The transforms are mutually inverse in both directions. */
  lemma WorldScreenRoundTrip(c: Camera, canvasWidth: real, canvasHeight: real, p: Point)
    ensures ScreenToWorld(c, canvasWidth, canvasHeight, WorldToScreen(c, canvasWidth, canvasHeight, p)) == p
    ensures WorldToScreen(c, canvasWidth, canvasHeight, ScreenToWorld(c, canvasWidth, canvasHeight, p)) == p
  {
  }

  /** `isInView(x, y, width, height)`: the object's screen rectangle meets
      the canvas, edges included. */
  predicate InView(c: Camera, canvasWidth: real, canvasHeight: real, x: real, y: real, width: real, height: real)
  {
    var s := WorldToScreen(c, canvasWidth, canvasHeight, Point(x, y));
    s.x + width >= 0.0 && s.x <= canvasWidth && s.y + height >= 0.0 && s.y <= canvasHeight
  }

  /** The visibility test in world terms: the object's closed rectangle
      meets the closed world rectangle of one canvas centred on the camera. */
  lemma InViewIsClosedWorldOverlap(c: Camera, canvasWidth: real, canvasHeight: real,
                                   x: real, y: real, width: real, height: real)
    ensures InView(c, canvasWidth, canvasHeight, x, y, width, height) <==>
      && x + width >= c.x - canvasWidth / 2.0 && x <= c.x + canvasWidth / 2.0
      && y + height >= c.y - canvasHeight / 2.0 && y <= c.y + canvasHeight / 2.0
  {
  }

  /** Inclusive edges: an object whose screen rectangle ends exactly at the
      left or top edge of the canvas, or starts exactly at the right or
      bottom edge, still counts as in view. */
  lemma InViewIncludesEdges(c: Camera, canvasWidth: real, canvasHeight: real, width: real, height: real)
    requires canvasWidth >= 0.0 && canvasHeight >= 0.0 && width >= 0.0 && height >= 0.0
    ensures var o := ScreenToWorld(c, canvasWidth, canvasHeight, Point(-width, -height));
            InView(c, canvasWidth, canvasHeight, o.x, o.y, width, height)
    ensures var o := ScreenToWorld(c, canvasWidth, canvasHeight, Point(canvasWidth, canvasHeight));
            InView(c, canvasWidth, canvasHeight, o.x, o.y, width, height)
  {
  }

  /** `startShake(intensity, duration)` at time `now`. */
  function StartShake(c: Camera, intensity: real, duration: int, now: int): (r: Camera)
    ensures r.shake == Shake(intensity, duration, now) && r.(shake := c.shake) == c
  {
    c.(shake := Shake(intensity, duration, now))
  }

  /** `getPosition()`. */
  function GetPosition(c: Camera): (p: Point)
    ensures p.x == c.x && p.y == c.y
  {
    Point(c.x, c.y)
  }

  /** `setPosition(x, y)`. */
  function SetPosition(c: Camera, x: real, y: real): (r: Camera)
    ensures GetPosition(r) == Point(x, y)
    ensures r.(x := c.x, y := c.y) == c
  {
    c.(x := x, y := y)
  }

  /** `reset()`: position, follow targets and shake intensity and duration
      back to zero; bounds, target reference and shake start kept. */
  function Reset(c: Camera): (r: Camera)
    ensures r.x == 0.0 && r.y == 0.0 && r.targetX == 0.0 && r.targetY == 0.0
    ensures r.shake.intensity == 0.0 && r.shake.duration == 0
    ensures r.shake.startTime == c.shake.startTime
    ensures r.bounds == c.bounds && r.hasTarget == c.hasTarget
    // a reset camera has no shake to update
    ensures forall now :: UpdateShake(r.shake, now) == r.shake
  {
    c.(x := 0.0, y := 0.0, targetX := 0.0, targetY := 0.0,
       shake := c.shake.(intensity := 0.0, duration := 0))
  }
}

=== FILE: collisions.dfy ===
/** `checkCollisions()` of gameEngine.js, pass by pass: player bullets
    against enemies and obstacles, enemy bullets against the player, and
    the player's body against enemies and junk piles. Particles emitted on
    hits are cosmetic and not modelled; `showScreenShake` calls are
    counted. One clock reading `now` serves the whole pass. */
module Collisions {
  import opened Common
  import opened Settings
  import opened Entities

  predicate EnemyAlive(e: Enemy) { e.body.active }

  predicate ObstacleAlive(o: Obstacle) { o.body.active }

  // ---------------------------------------------------------------------
  // Player bullets
  // ---------------------------------------------------------------------

  /** The bullet loop only considers active player bullets. */
  predicate LivePlayerShot(b: Bullet) { b.body.active && b.owner == PlayerOwned }

  /** A bullet body overlapping a live enemy. */
  predicate HitsEnemy(b: Body, e: Enemy) { e.body.active && Collides(b, e.body) }

  /** A bullet body overlapping a live obstacle. */
  predicate HitsObstacle(b: Body, o: Obstacle) { o.body.active && Collides(b, o.body) }

  /** One bullet's sweep over a target list (an inner `forEach`): every
      target it `hits` goes through `hurt`, which returns the target
      afterwards and whether the hit destroyed it. Targets are independent
      of each other, so the sweep is a map. */
  function Sweep<T>(ts: seq<T>, hits: T -> bool, hurt: T -> (T, bool)): (r: seq<T>)
    ensures |r| == |ts|
    ensures forall j :: 0 <= j < |ts| && !hits(ts[j]) ==> r[j] == ts[j]
    ensures forall j :: 0 <= j < |ts| && hits(ts[j]) ==> r[j] == hurt(ts[j]).0
  {
    seq(|ts|, j requires 0 <= j < |ts| => if hits(ts[j]) then hurt(ts[j]).0 else ts[j])
  }

  /** How many hits of a sweep reported a destroyed target: the number of
      score increments the source makes. */
  function Deaths<T>(ts: seq<T>, hits: T -> bool, hurt: T -> (T, bool)): (n: nat)
    ensures n <= |ts|
  {
    if |ts| == 0 then 0
    else (if hits(ts[0]) && hurt(ts[0]).1 then 1 else 0) + Deaths(ts[1..], hits, hurt)
  }

  /** When only live targets are hit and a hit reports a destruction exactly
      when it leaves the target dead, the reported destructions are exactly
      the targets the sweep killed. */
  lemma {:induction false} DeathsAreLosses<T>(ts: seq<T>, hits: T -> bool, hurt: T -> (T, bool), alive: T -> bool)
    requires forall t :: hits(t) ==> alive(t) && (hurt(t).1 <==> !alive(hurt(t).0))
    ensures Deaths(ts, hits, hurt) == Lost(ts, Sweep(ts, hits, hurt), alive)
  {
    if |ts| > 0 {
      DeathsAreLosses(ts[1..], hits, hurt, alive);
      assert Sweep(ts, hits, hurt)[1..] == Sweep(ts[1..], hits, hurt);
    }
  }

  /** The targets after one bullet's sweep, whether it hit anything and how
      many targets it finished off. */
  datatype Strike<T> = Strike(targets: seq<T>, hit: bool, kills: nat)

  function EnemyHits(b: Body): Enemy -> bool { e => HitsEnemy(b, e) }

  function EnemyHurt(damage: int): Enemy -> (Enemy, bool) { e => EnemyTakeDamage(e, damage) }

  /** The inner `enemies.forEach` for one bullet. The overlap test reads
      only the bounds, so a bullet keeps hitting after its own `destroy()`:
      one bullet damages every live enemy it overlaps. */
  function StrikeEnemies(b: Body, damage: int, es: seq<Enemy>): (r: Strike<Enemy>)
    ensures |r.targets| == |es|
    ensures r.hit <==> exists j :: 0 <= j < |es| && HitsEnemy(b, es[j])
    ensures forall j :: 0 <= j < |es| && HitsEnemy(b, es[j]) ==> r.targets[j] == EnemyTakeDamage(es[j], damage).0
    ensures forall j :: 0 <= j < |es| && !HitsEnemy(b, es[j]) ==> r.targets[j] == es[j]
    ensures r.kills == Lost(es, r.targets, EnemyAlive)
    ensures EnemiesOnlyDie(es, r.targets)
  {
    var targets := Sweep(es, EnemyHits(b), EnemyHurt(damage));
    DeathsAreLosses(es, EnemyHits(b), EnemyHurt(damage), EnemyAlive);
    Strike(targets, exists j :: 0 <= j < |es| && HitsEnemy(b, es[j]), Deaths(es, EnemyHits(b), EnemyHurt(damage)))
  }

  function ObstacleHits(b: Body): Obstacle -> bool { o => HitsObstacle(b, o) }

  function ObstacleHurt(damage: int): Obstacle -> (Obstacle, bool) { o => ObstacleTakeDamage(o, damage) }

  /** The inner `obstacles.forEach` for one bullet. */
  function StrikeObstacles(b: Body, damage: int, os: seq<Obstacle>): (r: Strike<Obstacle>)
    ensures |r.targets| == |os|
    ensures r.hit <==> exists j :: 0 <= j < |os| && HitsObstacle(b, os[j])
    ensures forall j :: 0 <= j < |os| && HitsObstacle(b, os[j]) ==> r.targets[j] == ObstacleTakeDamage(os[j], damage).0
    ensures forall j :: 0 <= j < |os| && !HitsObstacle(b, os[j]) ==> r.targets[j] == os[j]
    ensures r.kills == Lost(os, r.targets, ObstacleAlive)
    ensures ObstaclesOnlyDie(os, r.targets)
  {
    var targets := Sweep(os, ObstacleHits(b), ObstacleHurt(damage));
    DeathsAreLosses(os, ObstacleHits(b), ObstacleHurt(damage), ObstacleAlive);
    Strike(targets, exists j :: 0 <= j < |os| && HitsObstacle(b, os[j]), Deaths(os, ObstacleHits(b), ObstacleHurt(damage)))
  }

  /** Targets only lose life: nothing is revived and nothing moves. */
  predicate EnemiesOnlyDie(before: seq<Enemy>, after: seq<Enemy>)
  {
    |after| == |before| &&
    forall j :: 0 <= j < |before| ==>
      (after[j].body.active ==> before[j].body.active) && Bounds(after[j].body) == Bounds(before[j].body)
  }

  predicate ObstaclesOnlyDie(before: seq<Obstacle>, after: seq<Obstacle>)
  {
    |after| == |before| &&
    forall j :: 0 <= j < |before| ==>
      (after[j].body.active ==> before[j].body.active) && Bounds(after[j].body) == Bounds(before[j].body)
  }

  lemma EnemiesOnlyDieTransitive(a: seq<Enemy>, b: seq<Enemy>, c: seq<Enemy>)
    requires EnemiesOnlyDie(a, b) && EnemiesOnlyDie(b, c)
    ensures EnemiesOnlyDie(a, c)
  {
  }

  lemma ObstaclesOnlyDieTransitive(a: seq<Obstacle>, b: seq<Obstacle>, c: seq<Obstacle>)
    requires ObstaclesOnlyDie(a, b) && ObstaclesOnlyDie(b, c)
    ensures ObstaclesOnlyDie(a, c)
  {
  }

  /** A bullet that overlaps nothing alive. */
  predicate Misses(b: Body, es: seq<Enemy>, os: seq<Obstacle>)
  {
    && (forall k :: 0 <= k < |es| ==> !HitsEnemy(b, es[k]))
    && (forall k :: 0 <= k < |os| ==> !HitsObstacle(b, os[k]))
  }

  /** A bullet that misses everything still misses once targets have only
      died. */
  lemma MissesPersist(b: Body, es: seq<Enemy>, es2: seq<Enemy>, os: seq<Obstacle>, os2: seq<Obstacle>)
    requires EnemiesOnlyDie(es, es2) && ObstaclesOnlyDie(os, os2)
    ensures Misses(b, es, os) ==> Misses(b, es2, os2)
  {
  }

  /** One iteration of the outer bullet loop, and what it did. */
  datatype Volley = Volley(bullet: Bullet, enemies: seq<Enemy>, obstacles: seq<Obstacle>, kills: nat, wrecks: nat)

  /** One player bullet's turn: it sweeps the enemies, then the obstacles,
      and is destroyed exactly when it hit something. Anything else in the
      bullet list is skipped. */
  function PlayerShot(b: Bullet, es: seq<Enemy>, os: seq<Obstacle>): (r: Volley)
    ensures EnemiesOnlyDie(es, r.enemies) && ObstaclesOnlyDie(os, r.obstacles)
    ensures r.kills == Lost(es, r.enemies, EnemyAlive) && r.wrecks == Lost(os, r.obstacles, ObstacleAlive)
    ensures !LivePlayerShot(b) ==> r.bullet == b && r.enemies == es && r.obstacles == os
    ensures r.bullet == b || r.bullet == b.(body := Destroy(b.body))
  {
    if !LivePlayerShot(b) then
      LostNone(es, es, EnemyAlive);
      LostNone(os, os, ObstacleAlive);
      Volley(b, es, os, 0, 0)
    else
      var se := StrikeEnemies(b.body, b.damage, es);
      var so := StrikeObstacles(b.body, b.damage, os);
      Volley(if se.hit || so.hit then b.(body := Destroy(b.body)) else b, se.targets, so.targets, se.kills, so.kills)
  }

  /** A live player bullet is destroyed exactly when it overlapped a live
      target, and one that overlapped nothing comes out unchanged. */
  lemma PlayerShotStops(b: Bullet, es: seq<Enemy>, os: seq<Obstacle>)
    requires LivePlayerShot(b)
    ensures var r := PlayerShot(b, es, os);
      && (r.bullet.body.active <==> Misses(b.body, es, os))
      && (Misses(b.body, es, os) ==> r.bullet == b)
  {
  }

  /** Everything the first pass changes, and how many enemies (`kills`)
      and obstacles (`wrecks`) it destroyed. */
  datatype Shots = Shots(bullets: seq<Bullet>, enemies: seq<Enemy>, obstacles: seq<Obstacle>, kills: nat, wrecks: nat)

  /** The first pass: each bullet in turn takes its `PlayerShot` against
      the targets the earlier bullets left. The kill counts are the score
      increments the source makes. */
  function PlayerShots(bs: seq<Bullet>, es: seq<Enemy>, os: seq<Obstacle>): (r: Shots)
    ensures |r.bullets| == |bs|
    ensures EnemiesOnlyDie(es, r.enemies) && ObstaclesOnlyDie(os, r.obstacles)
    ensures r.kills == Lost(es, r.enemies, EnemyAlive) && r.wrecks == Lost(os, r.obstacles, ObstacleAlive)
    decreases |bs|
  {
    if |bs| == 0 then
      LostNone(es, es, EnemyAlive);
      LostNone(os, os, ObstacleAlive);
      Shots([], es, os, 0, 0)
    else
      var v := PlayerShot(bs[0], es, os);
      var rest := PlayerShots(bs[1..], v.enemies, v.obstacles);
      EnemiesOnlyDieTransitive(es, v.enemies, rest.enemies);
      ObstaclesOnlyDieTransitive(os, v.obstacles, rest.obstacles);
      LostChain(es, v.enemies, rest.enemies, EnemyAlive);
      LostChain(os, v.obstacles, rest.obstacles, ObstacleAlive);
      Shots([v.bullet] + rest.bullets, rest.enemies, rest.obstacles, v.kills + rest.kills, v.wrecks + rest.wrecks)
  }

  /** No live player bullet survives the pass overlapping a target that is
      still alive at its end. */
  lemma {:induction false} PlayerShotsStopBullets(bs: seq<Bullet>, es: seq<Enemy>, os: seq<Obstacle>, j: nat)
    requires j < |bs| && LivePlayerShot(bs[j])
    requires var r := PlayerShots(bs, es, os); !Misses(bs[j].body, r.enemies, r.obstacles)
    ensures !PlayerShots(bs, es, os).bullets[j].body.active
    decreases j
  {
    var r := PlayerShots(bs, es, os);
    var v := PlayerShot(bs[0], es, os);
    var rest := PlayerShots(bs[1..], v.enemies, v.obstacles);
    assert r.bullets == [v.bullet] + rest.bullets && r.enemies == rest.enemies && r.obstacles == rest.obstacles;
    if j == 0 {
      // a target alive at the end was alive, in the same place, at the start
      MissesPersist(bs[0].body, es, r.enemies, os, r.obstacles);
      PlayerShotStops(bs[0], es, os);
    } else {
      assert bs[1..][j - 1] == bs[j];
      PlayerShotsStopBullets(bs[1..], v.enemies, v.obstacles, j - 1);
    }
  }

  /** Enemy bullets and spent bullets are skipped by the first pass. */
  lemma {:induction false} PlayerShotsSkipOthers(bs: seq<Bullet>, es: seq<Enemy>, os: seq<Obstacle>, j: nat)
    requires j < |bs| && !LivePlayerShot(bs[j])
    ensures PlayerShots(bs, es, os).bullets[j] == bs[j]
    decreases j
  {
    var r := PlayerShots(bs, es, os);
    var v := PlayerShot(bs[0], es, os);
    var rest := PlayerShots(bs[1..], v.enemies, v.obstacles);
    assert r.bullets == [v.bullet] + rest.bullets;
    if j > 0 {
      assert bs[1..][j - 1] == bs[j];
      PlayerShotsSkipOthers(bs[1..], v.enemies, v.obstacles, j - 1);
    }
  }

  /** A bullet that overlaps nothing alive at the start of the pass comes
      out of it untouched. */
  lemma {:induction false} PlayerShotsSpareMisses(bs: seq<Bullet>, es: seq<Enemy>, os: seq<Obstacle>, j: nat)
    requires j < |bs| && Misses(bs[j].body, es, os)
    ensures PlayerShots(bs, es, os).bullets[j] == bs[j]
    decreases j
  {
    var r := PlayerShots(bs, es, os);
    var v := PlayerShot(bs[0], es, os);
    var rest := PlayerShots(bs[1..], v.enemies, v.obstacles);
    assert r.bullets == [v.bullet] + rest.bullets;
    if j > 0 {
      assert bs[1..][j - 1] == bs[j];
      MissesPersist(bs[j].body, es, v.enemies, os, v.obstacles);
      PlayerShotsSpareMisses(bs[1..], v.enemies, v.obstacles, j - 1);
    }
  }

  // ---------------------------------------------------------------------
  // Damage to the player
  // ---------------------------------------------------------------------

  /** What a pass that can damage the player promises about it: its bounds
      never change, it is never revived, a hit that lands makes it
      invulnerable, so at most one hit lands (and at most one screen shake
      is requested) per pass; a pass where none lands leaves it as it was,
      and an invulnerable player is never touched. */
  predicate AtMostOneHit(p: Player, q: Player, shakes: nat)
  {
    && Bounds(q.body) == Bounds(p.body)
    && (q.body.active ==> p.body.active)
    && shakes <= 1
    && (shakes == 1 ==> q.invincible && !p.invincible)
    && (shakes == 0 ==> q == p)
  }

  lemma AtMostOneHitChain(p: Player, q: Player, s: Player, m: nat, n: nat)
    requires AtMostOneHit(p, q, m) && AtMostOneHit(q, s, n)
    ensures m + n <= 1 && AtMostOneHit(p, s, m + n)
  {
  }

  /** One `takeDamage` call is a pass of its own: it lands exactly when
      the player is vulnerable. */
  lemma Wound(cfg: Config, p: Player, damage: int)
    ensures var w := PlayerTakeDamage(cfg, p, damage);
      AtMostOneHit(p, w.0, if w.1 then 1 else 0) && (w.1 <==> !p.invincible)
  {
  }

  /** An enemy bullet that can hit: active, enemy-owned. */
  predicate LiveEnemyShot(b: Bullet) { b.body.active && b.owner == EnemyOwned }

  datatype Hits = Hits(player: Player, bullets: seq<Bullet>, shakes: nat)

  /** An enemy bullet that reaches the player's bounds. */
  predicate Incoming(b: Bullet, p: Player) { LiveEnemyShot(b) && Collides(b.body, p.body) }

  /** The second pass: each active enemy bullet overlapping the live player
      damages it and is destroyed; a shake is requested when the damage
      lands. Once a bullet has killed the player the rest are skipped. */
  function EnemyShots(cfg: Config, p: Player, bs: seq<Bullet>): (r: Hits)
    ensures |r.bullets| == |bs|
    ensures AtMostOneHit(p, r.player, r.shakes)
    ensures r.shakes == 1 <==> !p.invincible && p.body.active && exists j :: 0 <= j < |bs| && Incoming(bs[j], p)
    decreases |bs|
  {
    if |bs| == 0 then Hits(p, [], 0)
    else
      var b := bs[0];
      assert forall j :: 1 <= j < |bs| ==> bs[1..][j - 1] == bs[j];
      if p.body.active && Incoming(b, p) then
        var w := PlayerTakeDamage(cfg, p, b.damage);
        Wound(cfg, p, b.damage);
        var rest := EnemyShots(cfg, w.0, bs[1..]);
        AtMostOneHitChain(p, w.0, rest.player, if w.1 then 1 else 0, rest.shakes);
        Hits(rest.player, [b.(body := Destroy(b.body))] + rest.bullets, (if w.1 then 1 else 0) + rest.shakes)
      else
        var rest := EnemyShots(cfg, p, bs[1..]);
        Hits(rest.player, [b] + rest.bullets, rest.shakes)
  }

  /** Bullets that do not reach the player come out of the pass unchanged. */
  lemma {:induction false} EnemyShotsSkipOthers(cfg: Config, p: Player, bs: seq<Bullet>, j: nat)
    requires j < |bs| && !Incoming(bs[j], p)
    ensures EnemyShots(cfg, p, bs).bullets[j] == bs[j]
    decreases j
  {
    if j > 0 {
      assert bs[1..][j - 1] == bs[j];
      var q := if p.body.active && Incoming(bs[0], p) then PlayerTakeDamage(cfg, p, bs[0].damage).0 else p;
      assert Bounds(q.body) == Bounds(p.body);
      EnemyShotsSkipOthers(cfg, q, bs[1..], j - 1);
    }
  }

  /** A player that survives the pass has absorbed every bullet that
      reached it: each one is destroyed. */
  lemma {:induction false} EnemyShotsAbsorbed(cfg: Config, p: Player, bs: seq<Bullet>, j: nat)
    requires j < |bs| && Incoming(bs[j], p)
    requires EnemyShots(cfg, p, bs).player.body.active
    ensures EnemyShots(cfg, p, bs).bullets[j] == bs[j].(body := Destroy(bs[j].body))
    decreases j
  {
    if j > 0 {
      assert bs[1..][j - 1] == bs[j];
      var q := if p.body.active && Incoming(bs[0], p) then PlayerTakeDamage(cfg, p, bs[0].damage).0 else p;
      assert Bounds(q.body) == Bounds(p.body);
      EnemyShotsAbsorbed(cfg, q, bs[1..], j - 1);
    }
  }

  /** The damage side of a contact pass over targets `ts`, in order: each
      target that `strikes` deals its `damage`; the result is the player
      afterwards and the number of shake requests. Whether a target strikes
      depends on the player's bounds only, which no hit changes, so it is
      decided against the bounds at the start of the pass. */
  function Attacks<T>(cfg: Config, p: Player, ts: seq<T>, strikes: T -> bool, damage: T -> int): (r: (Player, nat))
    ensures AtMostOneHit(p, r.0, r.1)
    ensures r.1 == 1 <==> !p.invincible && exists j :: 0 <= j < |ts| && strikes(ts[j])
    decreases |ts|
  {
    if |ts| == 0 then (p, 0)
    else
      assert forall j :: 1 <= j < |ts| ==> ts[1..][j - 1] == ts[j];
      if strikes(ts[0]) then
        var w := PlayerTakeDamage(cfg, p, damage(ts[0]));
        Wound(cfg, p, damage(ts[0]));
        var rest := Attacks(cfg, w.0, ts[1..], strikes, damage);
        AtMostOneHitChain(p, w.0, rest.0, if w.1 then 1 else 0, rest.1);
        (rest.0, (if w.1 then 1 else 0) + rest.1)
      else Attacks(cfg, p, ts[1..], strikes, damage)
  }

  datatype Brawl = Brawl(player: Player, enemies: seq<Enemy>, shakes: nat)

  /** A live enemy touching a player with bounds `box` whose attack cooldown
      has elapsed. */
  predicate Contact(cfg: Config, box: Box, e: Enemy, now: int)
  {
    e.body.active && Overlaps(box, Bounds(e.body)) && CanAttack(cfg, e, now)
  }

  /** The third pass, run only while the player is alive: every live enemy
      in contact whose cooldown has elapsed attacks (the damage is refused
      while the player is invulnerable) and restarts its cooldown. */
  function EnemyContact(cfg: Config, p: Player, es: seq<Enemy>, now: int): (r: Brawl)
    ensures |r.enemies| == |es|
    ensures AtMostOneHit(p, r.player, r.shakes)
    ensures r.shakes == 1 <==> !p.invincible && exists j :: 0 <= j < |es| && Contact(cfg, Bounds(p.body), es[j], now)
    ensures forall j :: 0 <= j < |es| ==>
      r.enemies[j] == if Contact(cfg, Bounds(p.body), es[j], now) then es[j].(lastAttackTime := now) else es[j]
  {
    var box := Bounds(p.body);
    var hits := Attacks(cfg, p, es, (e: Enemy) => Contact(cfg, box, e, now), (e: Enemy) => e.damage);
    Brawl(hits.0,
          seq(|es|, j requires 0 <= j < |es| => if Contact(cfg, box, es[j], now) then es[j].(lastAttackTime := now) else es[j]),
          hits.1)
  }

  /** An enemy that attacked cannot attack again at the same instant
      (given a positive cooldown). */
  lemma ContactRestartsCooldown(cfg: Config, p: Player, es: seq<Enemy>, now: int, j: nat)
    requires j < |es| && Contact(cfg, Bounds(p.body), es[j], now) && AttackCooldown(cfg, es[j]) > 0
    ensures !CanAttack(cfg, EnemyContact(cfg, p, es, now).enemies[j], now)
  {
  }

  /** The junk-pile cooldown in milliseconds. */
  const JunkCooldown: int := 500

  /** `!lastDamageTime || now - lastDamageTime >= 500`: a pile never
      touched, or stamped at time 0 (which JavaScript reads as false), or
      one whose cooldown has passed. */
  predicate JunkReady(o: Obstacle, now: int)
  {
    o.lastDamageTime.None? || o.lastDamageTime.value == 0 || now - o.lastDamageTime.value >= JunkCooldown
  }

  /** A live junk pile touching a player with bounds `box` whose cooldown
      has passed; other obstacles never hurt on contact. */
  predicate JunkContact(box: Box, o: Obstacle, now: int)
  {
    o.body.active && Overlaps(box, Bounds(o.body)) && o.junk && JunkReady(o, now)
  }

  datatype Scrape = Scrape(player: Player, obstacles: seq<Obstacle>, shakes: nat)

  /** The fourth pass, in the same guard as the third: junk piles in contact
      deal their damage and restart their cooldown. */
  function ObstacleContact(cfg: Config, p: Player, os: seq<Obstacle>, now: int): (r: Scrape)
    ensures |r.obstacles| == |os|
    ensures AtMostOneHit(p, r.player, r.shakes)
    ensures r.shakes == 1 <==> !p.invincible && exists j :: 0 <= j < |os| && JunkContact(Bounds(p.body), os[j], now)
    ensures forall j :: 0 <= j < |os| ==>
      r.obstacles[j] == if JunkContact(Bounds(p.body), os[j], now) then os[j].(lastDamageTime := Some(now)) else os[j]
  {
    var box := Bounds(p.body);
    var hits := Attacks(cfg, p, os, (o: Obstacle) => JunkContact(box, o, now), (o: Obstacle) => o.damage);
    Scrape(hits.0,
           seq(|os|, j requires 0 <= j < |os| =>
             if JunkContact(box, os[j], now) then os[j].(lastDamageTime := Some(now)) else os[j]),
           hits.1)
  }

  /** A pile that struck is not ready again at the same instant, unless the
      clock reads 0, which the source's falsy test treats as "never". */
  lemma JunkRestartsCooldown(cfg: Config, p: Player, os: seq<Obstacle>, now: int, j: nat)
    requires j < |os| && JunkContact(Bounds(p.body), os[j], now)
    ensures now != 0 <==> !JunkReady(ObstacleContact(cfg, p, os, now).obstacles[j], now)
  {
  }

  // ---------------------------------------------------------------------
  // The whole pass
  // ---------------------------------------------------------------------

  datatype Outcome = Outcome(
    player: Player,
    enemies: seq<Enemy>,
    bullets: seq<Bullet>,
    obstacles: seq<Obstacle>,
    kills: nat,
    wrecks: nat,
    shakes: nat)

  /** `checkCollisions()`: the four passes in source order; the contact
      passes are skipped when the enemy bullets have killed the player. */
  function CheckCollisions(cfg: Config, p: Player, es: seq<Enemy>, bs: seq<Bullet>, os: seq<Obstacle>, now: int)
    : (r: Outcome)
    ensures |r.bullets| == |bs|
    ensures EnemiesOnlyDie(es, r.enemies) && ObstaclesOnlyDie(os, r.obstacles)
    // the player is hit at most once per frame, and never while invulnerable
    ensures AtMostOneHit(p, r.player, r.shakes)
  {
    var shots := PlayerShots(bs, es, os);
    var incoming := EnemyShots(cfg, p, shots.bullets);
    if incoming.player.body.active then
      var brawl := EnemyContact(cfg, incoming.player, shots.enemies, now);
      var junk := ObstacleContact(cfg, brawl.player, shots.obstacles, now);
      AtMostOneHitChain(p, incoming.player, brawl.player, incoming.shakes, brawl.shakes);
      AtMostOneHitChain(p, brawl.player, junk.player, incoming.shakes + brawl.shakes, junk.shakes);
      Outcome(junk.player, brawl.enemies, incoming.bullets, junk.obstacles, shots.kills, shots.wrecks,
              incoming.shakes + brawl.shakes + junk.shakes)
    else
      Outcome(incoming.player, shots.enemies, incoming.bullets, shots.obstacles, shots.kills, shots.wrecks, incoming.shakes)
  }

  /** The pass reports exactly the enemies and obstacles that died in it:
      contact damage never kills a target. */
  lemma CheckCollisionsCount(cfg: Config, p: Player, es: seq<Enemy>, bs: seq<Bullet>, os: seq<Obstacle>, now: int)
    ensures var r := CheckCollisions(cfg, p, es, bs, os, now);
      r.kills == Lost(es, r.enemies, EnemyAlive) && r.wrecks == Lost(os, r.obstacles, ObstacleAlive)
  {
    var shots := PlayerShots(bs, es, os);
    var incoming := EnemyShots(cfg, p, shots.bullets);
    if incoming.player.body.active {
      var brawl := EnemyContact(cfg, incoming.player, shots.enemies, now);
      var junk := ObstacleContact(cfg, brawl.player, shots.obstacles, now);
      LostNone(shots.enemies, brawl.enemies, EnemyAlive);
      LostChain(es, shots.enemies, brawl.enemies, EnemyAlive);
      LostNone(shots.obstacles, junk.obstacles, ObstacleAlive);
      LostChain(os, shots.obstacles, junk.obstacles, ObstacleAlive);
    }
  }
}

=== FILE: common.dfy ===
/** Small building blocks shared by the whole model: an optional value (the
    source's `null`), numeric min/max as JavaScript's `Math.min`/`Math.max`
    compute them, and the order-preserving filter that every sweep of the
    game (`Array.prototype.filter`) performs. */
module Common {

  /** A value that may be missing, as a JavaScript reference may be `null`. */
  datatype Option<+T> = None | Some(value: T)

  function Min(a: real, b: real): real { if a <= b then a else b }
  function Max(a: real, b: real): real { if a >= b then a else b }
  function MinInt(a: int, b: int): int { if a <= b then a else b }
  function MaxInt(a: int, b: int): int { if a >= b then a else b }

  /** The elements of `s` that satisfy `keep`, in their original order. */
  function Filter<T(==)>(s: seq<T>, keep: T -> bool): (r: seq<T>)
    ensures |r| <= |s|
    ensures forall i :: 0 <= i < |r| ==> keep(r[i])
    ensures forall i :: 0 <= i < |s| && keep(s[i]) ==> s[i] in r
    ensures forall i :: 0 <= i < |r| ==> r[i] in s
    ensures multiset(r) <= multiset(s)
  {
    if |s| == 0 then []
    else
      assert s == [s[0]] + s[1..];
      if keep(s[0]) then [s[0]] + Filter(s[1..], keep) else Filter(s[1..], keep)
  }

  /** The positions of `s` whose element `keep` accepts, in increasing
      order. */
  function KeptPositions<T>(s: seq<T>, keep: T -> bool): (idx: seq<nat>)
    ensures forall i :: 0 <= i < |idx| ==> idx[i] < |s| && keep(s[idx[i]])
    ensures forall i, j :: 0 <= i < j < |idx| ==> idx[i] < idx[j]
    decreases |s|
  {
    if |s| == 0 then []
    else
      var rest := KeptPositions(s[1..], keep);
      var shifted := seq(|rest|, i requires 0 <= i < |rest| => rest[i] + 1);
      if keep(s[0]) then [0] + shifted else shifted
  }

  /** Every accepted position is listed. */
  lemma {:induction false} KeptPositionsComplete<T>(s: seq<T>, keep: T -> bool, j: nat)
    requires j < |s| && keep(s[j])
    ensures j in KeptPositions(s, keep)
    decreases j
  {
    var rest := KeptPositions(s[1..], keep);
    var shifted := seq(|rest|, i requires 0 <= i < |rest| => rest[i] + 1);
    if j > 0 {
      KeptPositionsComplete(s[1..], keep, j - 1);
      var i :| 0 <= i < |rest| && rest[i] == j - 1;
      assert shifted[i] == j;
    }
  }

  /** `r` lists the elements of `s` at the positions `idx`, in that order. */
  predicate Picks<T(==)>(r: seq<T>, s: seq<T>, idx: seq<nat>)
  {
    |r| == |idx| && forall i :: 0 <= i < |idx| ==> idx[i] < |s| && r[i] == s[idx[i]]
  }

  /** The filter is exactly the elements at the accepted positions, in
      increasing order: nothing is reordered, duplicated or invented. */
  lemma {:induction false} FilterPicksKeptPositions<T>(s: seq<T>, keep: T -> bool)
    ensures Picks(Filter(s, keep), s, KeptPositions(s, keep))
  {
    if |s| > 0 {
      var tail := s[1..];
      FilterPicksKeptPositions(tail, keep);
      var f', rest := Filter(tail, keep), KeptPositions(tail, keep);
      var shifted := seq(|rest|, i requires 0 <= i < |rest| => rest[i] + 1);
      assert Picks(f', s, shifted) by {
        forall i | 0 <= i < |rest|
          ensures shifted[i] < |s| && f'[i] == s[shifted[i]]
        {
          assert f'[i] == tail[rest[i]];
        }
      }
      if keep(s[0]) {
        PicksCons(s[0], f', s, shifted);
      }
    }
  }

  /** Picking position 0 first extends a pick of `s` whose head is `x`. */
  lemma PicksCons<T>(x: T, r: seq<T>, s: seq<T>, idx: seq<nat>)
    requires Picks(r, s, idx) && |s| > 0 && s[0] == x
    ensures Picks([x] + r, s, [0] + idx)
  {
    forall i | 0 <= i < |idx| + 1
      ensures ([0] + idx)[i] < |s| && ([x] + r)[i] == s[([0] + idx)[i]]
    {
      if i > 0 {
        assert ([0] + idx)[i] == idx[i - 1];
      }
    }
  }

  /** Filtering distributes over concatenation. */
  lemma {:induction false} FilterAppend<T>(a: seq<T>, b: seq<T>, keep: T -> bool)
    ensures Filter(a + b, keep) == Filter(a, keep) + Filter(b, keep)
  {
    if |a| == 0 {
      assert a + b == b;
    } else {
      assert (a + b)[1..] == a[1..] + b;
      FilterAppend(a[1..], b, keep);
    }
  }

  /** A sequence whose every element is kept is its own filter. */
  lemma {:induction false} FilterKeepsAll<T>(s: seq<T>, keep: T -> bool)
    requires forall i :: 0 <= i < |s| ==> keep(s[i])
    ensures Filter(s, keep) == s
  {
    if |s| > 0 {
      FilterKeepsAll(s[1..], keep);
    }
  }

  /** Filtering twice by the same test is filtering once. */
  lemma FilterIdempotent<T>(s: seq<T>, keep: T -> bool)
    ensures Filter(Filter(s, keep), keep) == Filter(s, keep)
  {
    FilterKeepsAll(Filter(s, keep), keep);
  }

  /** A filter and the filter by the opposite test split `s` exactly: no element
      is lost and none is duplicated. */
  lemma {:induction false} FilterPartition<T>(s: seq<T>, keep: T -> bool, drop: T -> bool)
    requires forall x :: drop(x) == !keep(x)
    ensures multiset(Filter(s, keep)) + multiset(Filter(s, drop)) == multiset(s)
    ensures |Filter(s, keep)| + |Filter(s, drop)| == |s|
  {
    if |s| > 0 {
      FilterPartition(s[1..], keep, drop);
      assert s == [s[0]] + s[1..];
    }
  }

  /** How many positions hold an element that is `alive` in `before` and no
      longer `alive` in `after` (the two sequences are the same list seen at
      two moments). */
  function Lost<T>(before: seq<T>, after: seq<T>, alive: T -> bool): (n: nat)
    requires |before| == |after|
    ensures n <= |before|
  {
    if |before| == 0 then 0
    else (if alive(before[0]) && !alive(after[0]) then 1 else 0) + Lost(before[1..], after[1..], alive)
  }

  /** When nothing comes back to life, losses over two steps add up. */
  lemma {:induction false} LostChain<T>(a: seq<T>, b: seq<T>, c: seq<T>, alive: T -> bool)
    requires |a| == |b| == |c|
    requires forall j :: 0 <= j < |a| ==> (alive(b[j]) ==> alive(a[j])) && (alive(c[j]) ==> alive(b[j]))
    ensures Lost(a, c, alive) == Lost(a, b, alive) + Lost(b, c, alive)
  {
    if |a| > 0 {
      LostChain(a[1..], b[1..], c[1..], alive);
    }
  }

  /** A step that changes nobody's liveness loses nobody. */
  lemma {:induction false} LostNone<T>(a: seq<T>, b: seq<T>, alive: T -> bool)
    requires |a| == |b|
    requires forall j :: 0 <= j < |a| ==> alive(a[j]) == alive(b[j])
    ensures Lost(a, b, alive) == 0
  {
    if |a| > 0 {
      LostNone(a[1..], b[1..], alive);
    }
  }
}

=== FILE: engine.dfy ===
/** `GameEngine` of gameEngine.js: the game state machine, the per-frame
    update pipeline and the values the HUD reads. Clock readings, the
    frame timestamp, the input direction and every `Math.random()` result
    are parameters. */
module Engine {
  import opened Common
  import opened Settings
  import opened Entities
  import Animation
  import Viewport
  import Spawning
  import Collisions

  datatype GameState = Start | Playing | Paused | GameOver | LevelComplete

  /** The engine's fields. The player exists from the first `resetGame`
      on (which construction runs), so it is not optional here.
      `shakes` counts the screen-shake requests sent to the HUD. */
  datatype Game = Game(
    state: GameState,
    level: int,
    score: int,
    gameStartTime: int,
    levelStartTime: int,
    lastTime: real,
    running: bool,
    player: Player,
    enemies: seq<Enemy>,
    bullets: seq<Bullet>,
    obstacles: seq<Obstacle>,
    particles: seq<Particle>,
    pending: seq<Enemy>,
    camera: Viewport.Camera,
    background: Animation.Background,
    shakes: nat)

  /** What holds in every state the engine reaches from `resetGame`: the
      camera shake is never started (so its update is always defined), the
      pending pool holds only inactive enemies, and the loop runs only
      while playing or on the level-complete screen. */
  predicate Wellformed(g: Game)
  {
    && g.camera.shake.intensity <= 0.0
    && Spawning.AllDormant(g.pending)
    && (g.running ==> g.state == Playing || g.state == LevelComplete)
  }

  // ---------------------------------------------------------------------
  // Lifecycle
  // ---------------------------------------------------------------------

  /** `resetGame()`: back to the start screen of level 1 with a new player
      centred under the camera and level 1 pre-generated. */
  function ResetGame(cfg: Config, g: Game, rnd: Spawning.Draws): (r: Game)
    requires |cfg.levels| > 0
    ensures r.state == Start && r.level == 1 && r.score == 0
    ensures r.gameStartTime == 0 && r.levelStartTime == 0
    ensures r.enemies == [] && r.bullets == [] && r.obstacles == [] && r.particles == []
    ensures r.player == NewPlayer(cfg, cfg.playerStartX, cfg.playerStartY)
    ensures r.pending == Spawning.PreSpawn(cfg, rnd, 1, cfg.playerMoveSpeed)
    ensures Viewport.GetPosition(r.camera) == Viewport.Point(cfg.canvasWidth / 2.0, cfg.playerStartY)
    ensures r.camera.hasTarget && r.background.currentLevel == 1 && r.background.scrollOffset == 0.0
    ensures r.running == g.running && r.lastTime == g.lastTime
    ensures !g.running ==> Wellformed(r)
    ensures MonsterCount(r) == |r.pending|
  {
    var player := NewPlayer(cfg, cfg.playerStartX, cfg.playerStartY);
    var cam0 := Viewport.Reset(Viewport.SetTarget(g.camera));
    var cam1 := Viewport.SetPosition(cam0, cfg.canvasWidth / 2.0, player.body.y);
    var cam := Viewport.SetBounds(cam1, cfg.canvasWidth / 2.0, cfg.canvasWidth / 2.0,
                                  -cfg.canvasHeight * 10.0, cfg.canvasHeight * 2.0);
    var bg := Animation.SetLevel(Animation.ResetScroll(g.background), 1);
    g.(state := Start, level := 1, score := 0, gameStartTime := 0, levelStartTime := 0,
       enemies := [], bullets := [], obstacles := [], particles := [], player := player,
       camera := cam, background := bg, shakes := 0,
       pending := Spawning.PreSpawn(cfg, rnd, 1, player.moveSpeed))
  }

  /** `startGame()` at clock reading `now`. The source then runs one loop
      iteration at frame time 0, which is `Frame` with `currentTime == 0`. */
  function StartGame(g: Game, now: int): (r: Game)
    ensures r.state == Playing && r.running && r.lastTime == 0.0
    ensures r.gameStartTime == now && r.levelStartTime == now
    ensures r.(state := g.state, running := g.running, lastTime := g.lastTime,
               gameStartTime := g.gameStartTime, levelStartTime := g.levelStartTime) == g
    ensures Wellformed(g) ==> Wellformed(r)
  {
    g.(state := Playing, gameStartTime := now, levelStartTime := now, lastTime := 0.0, running := true)
  }

  /** `restartGame()`: stop the loop and reset; the start screen waits for
      the player. */
  function RestartGame(cfg: Config, g: Game, rnd: Spawning.Draws): (r: Game)
    requires |cfg.levels| > 0
    ensures r.state == Start && !r.running && r.level == 1 && r.score == 0
    ensures Wellformed(r)
    ensures r.player == NewPlayer(cfg, cfg.playerStartX, cfg.playerStartY)
    ensures r.pending == Spawning.PreSpawn(cfg, rnd, 1, cfg.playerMoveSpeed)
    ensures r.enemies == [] && r.bullets == [] && r.obstacles == []
  {
    ResetGame(cfg, g.(running := false, state := Start), rnd)
  }

  /** `nextLevel()`: the following level starts now with empty lists and a
      freshly generated pending pool; score, player and particles carry
      over. */
  function NextLevel(cfg: Config, g: Game, now: int, rnd: Spawning.Draws): (r: Game)
    requires |cfg.levels| > 0
    ensures r.level == g.level + 1 && r.levelStartTime == now && r.state == Playing
    ensures r.enemies == [] && r.bullets == [] && r.obstacles == []
    ensures r.pending == Spawning.PreSpawn(cfg, rnd, g.level + 1, g.player.moveSpeed)
    ensures r.background.currentLevel == g.level + 1
    ensures r.score == g.score && r.player == g.player && r.particles == g.particles
    ensures Wellformed(g) ==> Wellformed(r)
  {
    g.(level := g.level + 1, levelStartTime := now, state := Playing,
       enemies := [], obstacles := [], bullets := [],
       background := Animation.SetLevel(g.background, g.level + 1),
       pending := Spawning.PreSpawn(cfg, rnd, g.level + 1, g.player.moveSpeed))
  }

  /** `gameOver()`: the loop stops. */
  function EndGame(g: Game): (r: Game)
    ensures r.state == GameOver && !r.running
    ensures r.(state := g.state, running := g.running) == g
    ensures Wellformed(g) ==> Wellformed(r)
  {
    g.(state := GameOver, running := false)
  }

  /** Whether the level just completed was the last one; the source then
      schedules `gameOver()` three seconds later instead of offering the
      next level. */
  predicate FinalLevel(cfg: Config, g: Game)
  {
    g.level >= |cfg.levels|
  }

  /** `levelComplete()`: the loop keeps running, `update` now does nothing. */
  function CompleteLevel(g: Game): (r: Game)
    ensures r.state == LevelComplete && r.(state := g.state) == g
    ensures Wellformed(g) ==> Wellformed(r)
  {
    g.(state := LevelComplete)
  }

  /** `pause()`: only from play. */
  function Pause(g: Game): (r: Game)
    ensures g.state == Playing ==> r == g.(state := Paused, running := false)
    ensures g.state != Playing ==> r == g
    ensures Wellformed(g) ==> Wellformed(r)
  {
    if g.state == Playing then g.(state := Paused, running := false) else g
  }

  /** `resume()`: only from pause; the frame clock restarts. The source then
      runs one loop iteration at frame time 0. */
  function Resume(g: Game): (r: Game)
    ensures g.state == Paused ==> r == g.(state := Playing, running := true, lastTime := 0.0)
    ensures g.state != Paused ==> r == g
    ensures Wellformed(g) ==> Wellformed(r)
  {
    if g.state == Paused then g.(state := Playing, running := true, lastTime := 0.0) else g
  }

  /** Pausing and resuming a running game gives it back with only the frame
      clock restarted; resuming and pausing a paused game gives it back
      unchanged apart from the frame clock. */
  lemma PauseResumeRoundTrip(g: Game)
    ensures g.state == Playing && g.running ==> Resume(Pause(g)) == g.(lastTime := 0.0)
    ensures g.state == Paused && !g.running ==> Pause(Resume(g)) == g.(lastTime := 0.0)
    ensures g.state != Playing && g.state != Paused ==> Resume(Pause(g)) == g && Pause(Resume(g)) == g
  {
  }

  // ---------------------------------------------------------------------
  // The frame
  // ---------------------------------------------------------------------

  /** The most time one frame may simulate, in seconds. */
  const MaxFrameTime: real := 1.0 / 30.0

  /** `gameLoop(currentTime)`'s time step: the first call after a reset of
      the frame clock seeds it and simulates nothing; otherwise the elapsed
      seconds, clamped from above only (a clock that runs backwards gives a
      negative step). Returns the step and the new frame clock. */
  function FrameDelta(lastTime: real, currentTime: real): (r: (real, real))
    ensures r.1 == currentTime
    ensures r.0 <= MaxFrameTime
    ensures lastTime == 0.0 ==> r.0 == 0.0
    ensures lastTime != 0.0 && currentTime - lastTime <= 1000.0 * MaxFrameTime ==>
      r.0 * 1000.0 == currentTime - lastTime
    ensures lastTime != 0.0 && currentTime - lastTime >= 1000.0 * MaxFrameTime ==> r.0 == MaxFrameTime
    ensures lastTime != 0.0 && currentTime < lastTime ==> r.0 < 0.0
  {
    var last := if lastTime == 0.0 then currentTime else lastTime;
    (Min((currentTime - last) / 1000.0, MaxFrameTime), currentTime)
  }

  /** `handlePlayerInput()` with the input direction `movement` (negative
      left, positive right, zero none): steer, keep climbing, and fire
      when the interval allows. Nothing happens to a dead player. */
  function HandlePlayerInput(cfg: Config, g: Game, movement: int, now: int): (r: Game)
    ensures !g.player.body.active ==> r == g
    ensures g.player.body.active ==>
      && r.player.body.vx == (if movement < 0 then -g.player.moveSpeed
                              else if movement > 0 then g.player.moveSpeed else 0.0)
      && r.player.body.vy == -g.player.moveSpeed * 0.5
      && Bounds(r.player.body) == Bounds(g.player.body) && r.player.body.active
      && (|r.bullets| == |g.bullets| + 1 <==> CanShoot(g.player, now))
      && (!CanShoot(g.player, now) ==> r.bullets == g.bullets)
      && (CanShoot(g.player, now) ==> r.player.lastShotTime == now && r.bullets[|g.bullets|].owner == PlayerOwned)
    ensures |r.bullets| >= |g.bullets| && r.bullets[..|g.bullets|] == g.bullets
    ensures r.(player := g.player, bullets := g.bullets) == g
    ensures r.player.health == g.player.health && r.player.invincible == g.player.invincible
  {
    if !g.player.body.active then g
    else
      var steered :=
        if movement < 0 then MoveLeft(g.player)
        else if movement > 0 then MoveRight(g.player)
        else StopMoving(g.player);
      var (p, shot) := Shoot(cfg, AutoMove(steered), now);
      var bullets := match shot case Some(b) => g.bullets + [b] case None => g.bullets;
      assert bullets[..|g.bullets|] == g.bullets;
      g.(player := p, bullets := bullets)
  }

  /** `updateEnemies`: every active enemy takes its step; inactive ones are
      left alone. */
  function StepEnemies(cfg: Config, es: seq<Enemy>, dt: real, player: Body): (r: seq<Enemy>)
    ensures |r| == |es|
    ensures forall j :: 0 <= j < |es| && !es[j].body.active ==> r[j] == es[j]
    ensures forall j :: 0 <= j < |es| && es[j].body.active ==> r[j] == EnemyStep(cfg, es[j], dt, Some(player))
  {
    seq(|es|, j requires 0 <= j < |es| => if es[j].body.active then EnemyStep(cfg, es[j], dt, Some(player)) else es[j])
  }

  /** `updateBullets`. */
  function StepBullets(cfg: Config, bs: seq<Bullet>, dt: real): (r: seq<Bullet>)
    ensures |r| == |bs|
    ensures forall j :: 0 <= j < |bs| && !bs[j].body.active ==> r[j] == bs[j]
    ensures forall j :: 0 <= j < |bs| && bs[j].body.active ==> r[j] == BulletStep(cfg, bs[j], dt)
  {
    seq(|bs|, j requires 0 <= j < |bs| => if bs[j].body.active then BulletStep(cfg, bs[j], dt) else bs[j])
  }

  /** `updateObstacles`: the base object update. */
  function StepObstacles(cfg: Config, os: seq<Obstacle>, dt: real): (r: seq<Obstacle>)
    ensures |r| == |os|
    ensures forall j :: 0 <= j < |os| && !os[j].body.active ==> r[j] == os[j]
    ensures forall j :: 0 <= j < |os| && os[j].body.active ==> r[j] == os[j].(body := Move(cfg, os[j].body, dt))
  {
    seq(|os|, j requires 0 <= j < |os| => if os[j].body.active then os[j].(body := Move(cfg, os[j].body, dt)) else os[j])
  }

  /** The first half of `update(deltaTime)`: camera, background, input and
      the motion of everything. */
  function Advance(cfg: Config, g: Game, dt: real, now: int, movement: int): (r: Game)
    requires Viewport.ShakeDefined(g.camera.shake, now)
    ensures r.state == g.state && r.level == g.level && r.score == g.score && r.shakes == g.shakes
    ensures r.pending == g.pending && r.running == g.running
    ensures r.levelStartTime == g.levelStartTime && r.gameStartTime == g.gameStartTime
    ensures |r.enemies| == |g.enemies| && |r.obstacles| == |g.obstacles| && |r.bullets| >= |g.bullets|
    ensures r.player.body.active ==> g.player.body.active
    ensures r.camera.shake == Viewport.UpdateShake(g.camera.shake, now)
  {
    var cam := Viewport.Update(g.camera, cfg.canvasWidth, g.player.body.y, now);
    var bg := Animation.Scroll(g.background, dt, cfg.canvasHeight);
    var h := HandlePlayerInput(cfg, g.(camera := cam, background := bg), movement, now);
    var p := if h.player.body.active then PlayerStep(cfg, h.player, dt) else h.player;
    h.(player := p,
       enemies := StepEnemies(cfg, h.enemies, dt, p.body),
       bullets := StepBullets(cfg, h.bullets, dt),
       obstacles := StepObstacles(cfg, h.obstacles, dt),
       particles := UpdateParticles(h.particles, dt))
  }

  predicate BulletAlive(b: Bullet) { b.body.active }

  /** `cleanupObjects()`: drop every inactive enemy, bullet and obstacle. */
  function Cleanup(g: Game): (r: Game)
    ensures forall j :: 0 <= j < |r.enemies| ==> r.enemies[j].body.active
    ensures forall j :: 0 <= j < |r.bullets| ==> r.bullets[j].body.active
    ensures forall j :: 0 <= j < |r.obstacles| ==> r.obstacles[j].body.active
    // nothing active is dropped
    ensures forall j :: 0 <= j < |g.enemies| && g.enemies[j].body.active ==> g.enemies[j] in r.enemies
    ensures forall j :: 0 <= j < |g.bullets| && g.bullets[j].body.active ==> g.bullets[j] in r.bullets
    ensures forall j :: 0 <= j < |g.obstacles| && g.obstacles[j].body.active ==> g.obstacles[j] in r.obstacles
    ensures r.(enemies := g.enemies, bullets := g.bullets, obstacles := g.obstacles) == g
    ensures MonsterCount(r) <= MonsterCount(g)
  {
    g.(enemies := Filter(g.enemies, Collisions.EnemyAlive),
       bullets := Filter(g.bullets, BulletAlive),
       obstacles := Filter(g.obstacles, Collisions.ObstacleAlive))
  }

  /** Cleanup keeps the survivors in their original order: each list is
      exactly its active entries, read at increasing positions, so nothing
      is reordered or duplicated. */
  lemma CleanupKeepsOrder(g: Game)
    ensures Picks(Cleanup(g).enemies, g.enemies, KeptPositions(g.enemies, Collisions.EnemyAlive))
    ensures Picks(Cleanup(g).bullets, g.bullets, KeptPositions(g.bullets, BulletAlive))
    ensures Picks(Cleanup(g).obstacles, g.obstacles, KeptPositions(g.obstacles, Collisions.ObstacleAlive))
  {
    FilterPicksKeptPositions(g.enemies, Collisions.EnemyAlive);
    FilterPicksKeptPositions(g.bullets, BulletAlive);
    FilterPicksKeptPositions(g.obstacles, Collisions.ObstacleAlive);
  }

  /** Cleaning up twice is cleaning up once. */
  lemma CleanupIdempotent(g: Game)
    ensures Cleanup(Cleanup(g)) == Cleanup(g)
  {
    FilterIdempotent(g.enemies, Collisions.EnemyAlive);
    FilterIdempotent(g.bullets, BulletAlive);
    FilterIdempotent(g.obstacles, Collisions.ObstacleAlive);
  }

  /** Whether the level's duration has elapsed at `now`:
      `(now - levelStartTime) / 1000 >= DURATION / 1000`. */
  predicate LevelTimeUp(cfg: Config, g: Game, now: int)
  {
    LevelAt(cfg, g.level).Some? && now - g.levelStartTime >= LevelAt(cfg, g.level).value.duration
  }

  /** `checkLevelComplete()`: a dead player ends the game; otherwise the
      level completes once its duration has elapsed. A level number outside
      the table never completes. */
  function CheckLevelComplete(cfg: Config, g: Game, now: int): (r: Game)
    ensures !g.player.body.active ==> r == EndGame(g)
    ensures g.player.body.active && LevelTimeUp(cfg, g, now) ==> r == CompleteLevel(g)
    ensures g.player.body.active && !LevelTimeUp(cfg, g, now) ==> r == g
    ensures LevelAt(cfg, g.level).None? && g.player.body.active ==> r == g
    // only the state and the loop flag can change
    ensures r.(state := g.state, running := g.running) == g
  {
    if !g.player.body.active then EndGame(g)
    else
      match LevelAt(cfg, g.level)
      case Some(l) =>
        if (now - g.levelStartTime) as real / 1000.0 >= l.duration as real / 1000.0 then CompleteLevel(g) else g
      case None => g
  }

  /** The level check on a game in play: it ends in game over exactly when
      the player is dead, and otherwise completes the level exactly when
      its time is up. */
  lemma CheckLevelCompleteOutcome(cfg: Config, g: Game, now: int)
    requires g.state == Playing
    ensures var r := CheckLevelComplete(cfg, g, now);
      && (r.state == GameOver <==> !g.player.body.active)
      && (r.state == GameOver ==> !r.running)
      && (g.player.body.active ==> (r.state == LevelComplete <==> LevelTimeUp(cfg, g, now)))
      && (g.player.body.active ==> (r.state == Playing <==> !LevelTimeUp(cfg, g, now)))
      && (g.player.body.active ==> r.running == g.running)
  {
  }

  /** `spawnEnemies()` on the engine: the pending enemies the player has
      come near join the active list. */
  function WakeEnemies(cfg: Config, g: Game): (r: Game)
    ensures Spawning.AllDormant(r.pending)
    ensures Spawning.AllDormant(g.pending) ==> MonsterCount(r) == MonsterCount(g)
    ensures |r.enemies| >= |g.enemies| && r.enemies[..|g.enemies|] == g.enemies
    ensures r.(pending := g.pending, enemies := g.enemies) == g
  {
    var woken := Spawning.SpawnEnemies(g.pending, g.enemies, g.player.body.y, cfg.canvasHeight);
    g.(pending := woken.0, enemies := woken.1)
  }

  /** The score a collision pass earns for `kills` enemies and `wrecks`
      obstacles destroyed. */
  function Reward(cfg: Config, kills: nat, wrecks: nat): (r: int)
    ensures cfg.scorePerEnemy >= 0 && cfg.scorePerObstacle >= 0 ==> r >= 0
    ensures kills == 0 && wrecks == 0 ==> r == 0
  {
    cfg.scorePerEnemy * kills + cfg.scorePerObstacle * wrecks
  }

  /** Each further kill adds `SCORE_PER_ENEMY` and each further wreck
      `SCORE_PER_OBSTACLE`; with the empty pass scoring 0 this fixes the
      reward of every pass. */
  lemma RewardPerDeath(cfg: Config, kills: nat, wrecks: nat)
    ensures Reward(cfg, kills + 1, wrecks) == Reward(cfg, kills, wrecks) + cfg.scorePerEnemy
    ensures Reward(cfg, kills, wrecks + 1) == Reward(cfg, kills, wrecks) + cfg.scorePerObstacle
  {
  }

  /** `checkCollisions()` on the engine: kills are scored and shake
      requests counted. */
  function Collide(cfg: Config, g: Game, now: int): (r: Game)
    ensures r.player.body.active ==> g.player.body.active
    ensures r.shakes <= g.shakes + 1
    ensures |r.enemies| == |g.enemies|
    ensures cfg.scorePerEnemy >= 0 && cfg.scorePerObstacle >= 0 ==> r.score >= g.score
    ensures r.(player := g.player, enemies := g.enemies, bullets := g.bullets, obstacles := g.obstacles,
               score := g.score, shakes := g.shakes) == g
  {
    var c := Collisions.CheckCollisions(cfg, g.player, g.enemies, g.bullets, g.obstacles, now);
    g.(player := c.player, enemies := c.enemies, bullets := c.bullets, obstacles := c.obstacles,
       shakes := g.shakes + c.shakes, score := g.score + Reward(cfg, c.kills, c.wrecks))
  }

  /** The score of a collision pass rises by `SCORE_PER_ENEMY` for every
      enemy that died in it and by `SCORE_PER_OBSTACLE` for every obstacle
      that was wrecked, and by nothing else. */
  lemma CollideScores(cfg: Config, g: Game, now: int)
    ensures var r := Collide(cfg, g, now);
      && |r.enemies| == |g.enemies| && |r.obstacles| == |g.obstacles|
      && r.score == g.score
           + cfg.scorePerEnemy * Lost(g.enemies, r.enemies, Collisions.EnemyAlive)
           + cfg.scorePerObstacle * Lost(g.obstacles, r.obstacles, Collisions.ObstacleAlive)
  {
    Collisions.CheckCollisionsCount(cfg, g.player, g.enemies, g.bullets, g.obstacles, now);
  }

  /** The middle of `update`: activate pending enemies, resolve collisions
      and clean up. */
  function Resolve(cfg: Config, g: Game, now: int): (r: Game)
    ensures r.state == g.state && r.level == g.level && r.levelStartTime == g.levelStartTime
    ensures r.running == g.running && r.camera == g.camera
    ensures r.player.body.active ==> g.player.body.active
    ensures r.shakes <= g.shakes + 1
    ensures forall j :: 0 <= j < |r.enemies| ==> r.enemies[j].body.active
    ensures forall j :: 0 <= j < |r.bullets| ==> r.bullets[j].body.active
    ensures forall j :: 0 <= j < |r.obstacles| ==> r.obstacles[j].body.active
    ensures Spawning.AllDormant(r.pending)
    ensures cfg.scorePerEnemy >= 0 && cfg.scorePerObstacle >= 0 ==> r.score >= g.score
    ensures Spawning.AllDormant(g.pending) ==> MonsterCount(r) <= MonsterCount(g)
  {
    Cleanup(Collide(cfg, WakeEnemies(cfg, g), now))
  }

  /** `update(deltaTime)` at clock reading `now` with input direction
      `movement`: nothing outside play; otherwise advance, activate pending
      enemies, resolve collisions (scoring the kills), clean up and check
      for the end of the level. */
  function Update(cfg: Config, g: Game, dt: real, now: int, movement: int): (r: Game)
    requires Viewport.ShakeDefined(g.camera.shake, now)
    ensures g.state != Playing ==> r == g
    ensures g.state == Playing ==> r.level == g.level && r.levelStartTime == g.levelStartTime
  {
    if g.state != Playing then g
    else CheckLevelComplete(cfg, Resolve(cfg, Advance(cfg, g, dt, now, movement), now), now)
  }

  /** A frame of play keeps the engine well formed. */
  lemma UpdateWellformed(cfg: Config, g: Game, dt: real, now: int, movement: int)
    requires Wellformed(g)
    ensures Viewport.ShakeDefined(g.camera.shake, now) && Wellformed(Update(cfg, g, dt, now, movement))
  {
    if g.state == Playing {
      var a := Advance(cfg, g, dt, now, movement);
      assert a.camera.shake == g.camera.shake;
      var m := Resolve(cfg, a, now);
      assert m.camera.shake == g.camera.shake && m.state == Playing;
      CheckLevelCompleteOutcome(cfg, m, now);
    }
  }

  /** How a frame of play ends: in game over exactly when the player died
      (which stops the loop), otherwise on the level-complete screen exactly
      when the level's time is up, and still playing otherwise. */
  lemma UpdateOutcome(cfg: Config, g: Game, dt: real, now: int, movement: int)
    requires Viewport.ShakeDefined(g.camera.shake, now) && g.state == Playing
    ensures var r := Update(cfg, g, dt, now, movement);
      && (r.state == GameOver <==> !r.player.body.active)
      && (r.state == GameOver ==> !r.running)
      && (r.player.body.active ==> (r.state == LevelComplete <==> LevelTimeUp(cfg, r, now)))
      && (r.player.body.active ==> (r.state == Playing <==> !LevelTimeUp(cfg, r, now)))
      && (r.player.body.active ==> r.running == g.running)
  {
    var m := Resolve(cfg, Advance(cfg, g, dt, now, movement), now);
    CheckLevelCompleteOutcome(cfg, m, now);
    assert LevelTimeUp(cfg, Update(cfg, g, dt, now, movement), now) == LevelTimeUp(cfg, m, now);
  }

  /** What a frame of play leaves behind: only live objects, a dormant
      pending pool, at most one more shake request, a score that does not
      fall when kills are rewarded, and no monster count growth. */
  lemma UpdateLeavesOnlyLive(cfg: Config, g: Game, dt: real, now: int, movement: int)
    requires Viewport.ShakeDefined(g.camera.shake, now) && g.state == Playing
    ensures var r := Update(cfg, g, dt, now, movement);
      && r.shakes <= g.shakes + 1
      && (forall j :: 0 <= j < |r.enemies| ==> r.enemies[j].body.active)
      && (forall j :: 0 <= j < |r.bullets| ==> r.bullets[j].body.active)
      && (forall j :: 0 <= j < |r.obstacles| ==> r.obstacles[j].body.active)
      && Spawning.AllDormant(r.pending)
      && (cfg.scorePerEnemy >= 0 && cfg.scorePerObstacle >= 0 ==> r.score >= g.score)
      // monsters never appear in the middle of a level
      && (Spawning.AllDormant(g.pending) ==> MonsterCount(r) <= MonsterCount(g))
  {
    var m := Resolve(cfg, Advance(cfg, g, dt, now, movement), now);
    assert Update(cfg, g, dt, now, movement).(state := m.state, running := m.running) == m;
  }

  /** The score a frame of play earns is exactly the reward of its collision
      pass: the deaths among the enemies and obstacles it faces, once the
      pending enemies nearby have woken. */
  lemma UpdateScores(cfg: Config, g: Game, dt: real, now: int, movement: int)
    requires Viewport.ShakeDefined(g.camera.shake, now) && g.state == Playing
    ensures var w := WakeEnemies(cfg, Advance(cfg, g, dt, now, movement));
      var c := Collide(cfg, w, now);
      && |c.enemies| == |w.enemies| && |c.obstacles| == |w.obstacles|
      && Update(cfg, g, dt, now, movement).score == g.score
           + cfg.scorePerEnemy * Lost(w.enemies, c.enemies, Collisions.EnemyAlive)
           + cfg.scorePerObstacle * Lost(w.obstacles, c.obstacles, Collisions.ObstacleAlive)
  {
    var w := WakeEnemies(cfg, Advance(cfg, g, dt, now, movement));
    CollideScores(cfg, w, now);
    var m := Resolve(cfg, Advance(cfg, g, dt, now, movement), now);
    assert m.score == Collide(cfg, w, now).score;
    assert Update(cfg, g, dt, now, movement).(state := m.state, running := m.running) == m;
  }

  /** One `gameLoop(currentTime)` iteration at frame time `currentTime`
      (milliseconds) and clock reading `now`; rendering is not modelled. */
  function Frame(cfg: Config, g: Game, currentTime: real, now: int, movement: int): (r: Game)
    requires Viewport.ShakeDefined(g.camera.shake, now)
    ensures !g.running ==> r == g
    ensures g.running && g.state != Playing ==> r == g.(lastTime := currentTime)
    ensures g.running && g.state == Playing ==>
      r == Update(cfg, g.(lastTime := currentTime), FrameDelta(g.lastTime, currentTime).0, now, movement)
  {
    if !g.running then g
    else
      var (dt, last) := FrameDelta(g.lastTime, currentTime);
      Update(cfg, g.(lastTime := last), dt, now, movement)
  }

  /** Every frame keeps the engine well formed, so from `resetGame` on the
      loop can run forever. */
  lemma FrameWellformed(cfg: Config, g: Game, currentTime: real, now: int, movement: int)
    requires Wellformed(g)
    ensures Viewport.ShakeDefined(g.camera.shake, now) && Wellformed(Frame(cfg, g, currentTime, now, movement))
  {
    if g.running {
      UpdateWellformed(cfg, g.(lastTime := currentTime), FrameDelta(g.lastTime, currentTime).0, now, movement);
    }
  }

  /** In a well-formed state the camera shake is off, so a frame can run at
      any clock reading. */
  lemma WellformedFramesAreDefined(g: Game, now: int)
    requires Wellformed(g)
    ensures Viewport.ShakeDefined(g.camera.shake, now)
  {
  }

  /** Starting a game and running its first loop iteration (at frame time
      0) simulates no time. */
  lemma FirstFrameSimulatesNothing(g: Game, now: int)
    ensures FrameDelta(StartGame(g, now).lastTime, 0.0).0 == 0.0
    ensures FrameDelta(Resume(g).lastTime, 0.0).0 == 0.0 || g.state != Paused
  {
  }

  // ---------------------------------------------------------------------
  // HUD values (`updateUI`)
  // ---------------------------------------------------------------------

  /** The "monsters left" figure: pending plus active enemies. */
  function MonsterCount(g: Game): nat
  {
    |g.pending| + |g.enemies|
  }

  /** The level progress percentage at clock reading `now`: 0 when the
      level number is outside the table, else the elapsed fraction of the
      duration, capped at 100. `None` when the level's duration is 0, where
      the source divides by zero. */
  function Progress(cfg: Config, g: Game, now: int): (r: Option<real>)
    ensures LevelAt(cfg, g.level).None? ==> r == Some(0.0)
    ensures LevelAt(cfg, g.level).Some? && LevelAt(cfg, g.level).value.duration == 0 ==> r.None?
    ensures LevelAt(cfg, g.level).Some? && LevelAt(cfg, g.level).value.duration > 0 && now >= g.levelStartTime ==>
      r.Some? && 0.0 <= r.value <= 100.0
    ensures r.Some? ==> r.value <= 100.0
    // the elapsed share of the duration, as a percentage, capped at 100
    ensures LevelAt(cfg, g.level).Some? && LevelAt(cfg, g.level).value.duration > 0 ==>
      r == Some(Min(100.0, (now - g.levelStartTime) as real * 100.0 / LevelAt(cfg, g.level).value.duration as real))
  {
    match LevelAt(cfg, g.level)
    case None => Some(0.0)
    case Some(l) =>
      if l.duration == 0 then None
      else
        var levelTime := (now - g.levelStartTime) as real / 1000.0;
        SecondsShare((now - g.levelStartTime) as real, l.duration as real);
        Some(Min(100.0, (levelTime / (l.duration as real / 1000.0)) * 100.0))
  }

  /** Measuring both times in seconds leaves their share unchanged. */
  lemma SecondsShare(t: real, d: real)
    requires d != 0.0
    ensures (t / 1000.0) / (d / 1000.0) * 100.0 == t * 100.0 / d
  {
    var x := (t / 1000.0) / (d / 1000.0);
    assert x * (d / 1000.0) == t / 1000.0;
    assert x * d == t;
    assert x * 100.0 * d == t * 100.0;
  }

  /** Until the bar is full it rises strictly with the clock. */
  lemma ProgressRisesUntilFull(cfg: Config, g: Game, t1: int, t2: int)
    requires LevelAt(cfg, g.level).Some? && LevelAt(cfg, g.level).value.duration > 0
    requires t1 < t2 && Progress(cfg, g, t2).value < 100.0
    ensures Progress(cfg, g, t1).value < Progress(cfg, g, t2).value
  {
    var d := LevelAt(cfg, g.level).value.duration as real;
    var x := (t1 - g.levelStartTime) as real * 100.0 / d;
    var y := (t2 - g.levelStartTime) as real * 100.0 / d;
    assert (y - x) * d == (t2 - t1) as real * 100.0;
    assert x < y;
  }

  /** Half the duration shows half the bar. */
  lemma ProgressHalfway(cfg: Config, g: Game, now: int)
    requires LevelAt(cfg, g.level).Some? && 2 * (now - g.levelStartTime) == LevelAt(cfg, g.level).value.duration > 0
    ensures Progress(cfg, g, now) == Some(50.0)
  {
    var d := LevelAt(cfg, g.level).value.duration as real;
    var t := (now - g.levelStartTime) as real;
    assert t * 2.0 == d;
    assert t * 100.0 / d == 50.0 by {
      assert 50.0 * d == t * 100.0;
    }
  }

  /** The progress bar is full exactly when the level-complete check fires
      (for a level in the table with a positive duration). */
  lemma ProgressFullIffTimeUp(cfg: Config, g: Game, now: int)
    requires LevelAt(cfg, g.level).Some? && LevelAt(cfg, g.level).value.duration > 0
    ensures Progress(cfg, g, now) == Some(100.0) <==> LevelTimeUp(cfg, g, now)
  {
    var d := LevelAt(cfg, g.level).value.duration as real;
    var e := (now - g.levelStartTime) as real;
    assert (e / 1000.0) / (d / 1000.0) * 100.0 == e * 100.0 / d;
    if e >= d {
      assert e * 100.0 / d >= 100.0;
    } else {
      assert e * 100.0 < d * 100.0;
      assert e * 100.0 / d < 100.0;
    }
  }
}

=== FILE: entities.dfy ===
/** The game objects of gameObjects.js as immutable records with pure
    per-frame operations. Every object carries a `Body` (the fields of the
    base `GameObject`); wall-clock reads (`Date.now()`) are a `now`
    parameter in milliseconds and frame deltas are in seconds. */
module Entities {
  import opened Common
  import opened Settings
  import Animation

  // ---------------------------------------------------------------------
  // GameObject
  // ---------------------------------------------------------------------

  /** Position, size, velocity and the `active` flag of a `GameObject`. */
  datatype Body = Body(x: real, y: real, width: real, height: real, vx: real, vy: real, active: bool)

  /** `getBounds()`. */
  datatype Box = Box(left: real, right: real, top: real, bottom: real)

  function Bounds(b: Body): (r: Box)
    ensures r.left <= r.right <==> b.width >= 0.0
    ensures r.top <= r.bottom <==> b.height >= 0.0
  {
    Box(b.x, b.x + b.width, b.y, b.y + b.height)
  }

  /** Open-interval overlap of two boxes on both axes. */
  predicate Overlaps(p: Box, q: Box)
  {
    p.left < q.right && p.right > q.left && p.top < q.bottom && p.bottom > q.top
  }

  /** `checkCollision(other)`: the test reads the bounds only, never the
      `active` flag. */
  predicate Collides(a: Body, b: Body)
  {
    Overlaps(Bounds(a), Bounds(b))
  }

  /** A point strictly inside a body's rectangle. */
  predicate Inside(b: Body, px: real, py: real)
  {
    b.x < px < b.x + b.width && b.y < py < b.y + b.height
  }

  /** The collision test does not depend on which object asks. */
  lemma CollidesSymmetric(a: Body, b: Body)
    ensures Collides(a, b) <==> Collides(b, a)
  {
  }

  /** For rectangles of positive size, colliding means sharing an interior
      point: rectangles that merely touch along an edge or at a corner do
      not collide. */
  lemma CollidesIffSharedInterior(a: Body, b: Body)
    requires a.width > 0.0 && a.height > 0.0 && b.width > 0.0 && b.height > 0.0
    ensures Collides(a, b) <==> exists px, py :: Inside(a, px, py) && Inside(b, px, py)
  {
    if Collides(a, b) {
      var px := (Max(a.x, b.x) + Min(a.x + a.width, b.x + b.width)) / 2.0;
      var py := (Max(a.y, b.y) + Min(a.y + a.height, b.y + b.height)) / 2.0;
      assert Inside(a, px, py) && Inside(b, px, py);
    }
  }

  /** Rectangles that only meet along an edge never collide. */
  lemma TouchingIsNoCollision(a: Body, b: Body)
    requires b.x == a.x + a.width || b.y == a.y + a.height ||
             a.x == b.x + b.width || a.y == b.y + b.height
    ensures !Collides(a, b)
  {
  }

  /** Two examples: (0,0,10,10) meets (9,9,10,10) but only
      touches (10,10,10,10) at a corner. */
  lemma CollisionExamples()
    ensures Collides(Body(0.0, 0.0, 10.0, 10.0, 0.0, 0.0, true), Body(9.0, 9.0, 10.0, 10.0, 0.0, 0.0, true))
    ensures !Collides(Body(0.0, 0.0, 10.0, 10.0, 0.0, 0.0, true), Body(10.0, 10.0, 10.0, 10.0, 0.0, 0.0, true))
  {
  }

  /** `destroy()`: only the `active` flag changes, and a second destroy
      changes nothing more. */
  function Destroy(b: Body): (r: Body)
    ensures !r.active
    ensures r.(active := b.active) == b
    ensures !b.active ==> r == b
  {
    b.(active := false)
  }

  lemma DestroyIdempotent(b: Body)
    ensures Destroy(Destroy(b)) == Destroy(b)
  {
  }

  /** `checkPlayAreaBounds()`: clamp into the lane, zeroing the horizontal
      velocity when (and only when) a clamp happens. */
  function ClampToLane(cfg: Config, b: Body): (r: Body)
    ensures b.width <= LaneWidth ==> LaneLeft(cfg) <= r.x && r.x + r.width <= LaneRight(cfg)
    ensures (b.x < LaneLeft(cfg) || b.x + b.width > LaneRight(cfg)) ==> r.vx == 0.0
    ensures LaneLeft(cfg) <= b.x && b.x + b.width <= LaneRight(cfg) ==> r == b
    // a body outside stops against the edge it crossed, the left one first
    ensures b.x < LaneLeft(cfg) ==> r.x == LaneLeft(cfg)
    ensures LaneLeft(cfg) <= b.x && b.x + b.width > LaneRight(cfg) ==> r.x == LaneRight(cfg) - b.width
    ensures r.(x := b.x, vx := b.vx) == b
  {
    if b.x < LaneLeft(cfg) then b.(x := LaneLeft(cfg), vx := 0.0)
    else if b.x + b.width > LaneRight(cfg) then b.(x := LaneRight(cfg) - b.width, vx := 0.0)
    else b
  }

  /** Clamping a body that fits the lane twice is clamping it once. */
  lemma ClampToLaneIdempotent(cfg: Config, b: Body)
    requires b.width <= LaneWidth
    ensures ClampToLane(cfg, ClampToLane(cfg, b)) == ClampToLane(cfg, b)
  {
  }

  /** `GameObject.update(deltaTime)`: integrate, destroy below the canvas,
      clamp into the lane. */
  function Move(cfg: Config, b: Body, dt: real): (r: Body)
    ensures r.y == b.y + b.vy * dt
    ensures r.width == b.width && r.height == b.height && r.vy == b.vy
    ensures r.active <==> b.active && b.y + b.vy * dt <= cfg.canvasHeight
    ensures b.width <= LaneWidth ==> LaneLeft(cfg) <= r.x && r.x + r.width <= LaneRight(cfg)
    // horizontally: the step by velocity, unless it leaves the lane, where
    // the body stops against the edge it crossed
    ensures var x := b.x + b.vx * dt;
      LaneLeft(cfg) <= x && x + b.width <= LaneRight(cfg) ==> r.x == x && r.vx == b.vx
    ensures var x := b.x + b.vx * dt;
      x < LaneLeft(cfg) ==> r.x == LaneLeft(cfg) && r.vx == 0.0
    ensures var x := b.x + b.vx * dt;
      LaneLeft(cfg) <= x && x + b.width > LaneRight(cfg) ==> r.x == LaneRight(cfg) - b.width && r.vx == 0.0
  {
    var moved := b.(x := b.x + b.vx * dt, y := b.y + b.vy * dt);
    var checked := if moved.y > cfg.canvasHeight then Destroy(moved) else moved;
    ClampToLane(cfg, checked)
  }

  // ---------------------------------------------------------------------
  // Bullet
  // ---------------------------------------------------------------------

  datatype Owner = PlayerOwned | EnemyOwned

  /** `Bullet`: a body plus damage, owner and the spawn point its range is
      measured from. */
  datatype Bullet = Bullet(body: Body, damage: int, owner: Owner, initialX: real, initialY: real)

  /** `new Bullet(...)`: player bullets take the player bullet size, enemy
      bullets the enemy bullet size. */
  function NewBullet(cfg: Config, x: real, y: real, vx: real, vy: real, damage: int, owner: Owner): (r: Bullet)
    ensures r.body.active && r.body.x == x && r.body.y == y
    ensures r.body.vx == vx && r.body.vy == vy
    ensures r.initialX == x && r.initialY == y && r.damage == damage && r.owner == owner
    ensures owner == PlayerOwned ==> r.body.width == cfg.bulletWidth && r.body.height == cfg.bulletHeight
    ensures owner == EnemyOwned ==> r.body.width == cfg.enemyBulletWidth && r.body.height == cfg.enemyBulletHeight
  {
    var w := if owner == PlayerOwned then cfg.bulletWidth else cfg.enemyBulletWidth;
    var h := if owner == PlayerOwned then cfg.bulletHeight else cfg.enemyBulletHeight;
    Bullet(Body(x, y, w, h, vx, vy, true), damage, owner, x, y)
  }

  /** Maximum flight: two seconds at the player bullet speed (the source
      uses the player bullet speed for enemy bullets too). */
  function MaxFlightDistance(cfg: Config): real { cfg.bulletSpeed * 2.0 }

  /** Inside the range above the spawn point and inside the 1000-pixel
      margin around the canvas below, left and right. There is no margin
      above: upward flight is bounded by the range alone. */
  predicate InFlightZone(cfg: Config, b: Bullet)
  {
    && b.body.y >= b.initialY - MaxFlightDistance(cfg)
    && b.body.y <= cfg.canvasHeight + 1000.0
    && b.body.x + b.body.width >= -1000.0
    && b.body.x <= cfg.canvasWidth + 1000.0
  }

  /** `Bullet.update(deltaTime)`: integrate without lane clamping; expire out
      of range or out of the margin. */
  function BulletStep(cfg: Config, b: Bullet, dt: real): (r: Bullet)
    ensures r.body.x == b.body.x + b.body.vx * dt && r.body.y == b.body.y + b.body.vy * dt
    ensures r.body.(x := b.body.x, y := b.body.y, active := b.body.active) == b.body
    ensures r.(body := b.body) == b
    ensures r.body.active <==> b.body.active && InFlightZone(cfg, r)
    // a surviving bullet never got further than its range from where it was fired
    ensures r.body.active ==> b.initialY - r.body.y <= MaxFlightDistance(cfg)
  {
    var moved := b.body.(x := b.body.x + b.body.vx * dt, y := b.body.y + b.body.vy * dt);
    var maxY := b.initialY - MaxFlightDistance(cfg);
    if moved.y < maxY || moved.y > cfg.canvasHeight + 1000.0 ||
       moved.x + moved.width < -1000.0 || moved.x > cfg.canvasWidth + 1000.0
    then b.(body := Destroy(moved))
    else b.(body := moved)
  }

  // ---------------------------------------------------------------------
  // Player
  // ---------------------------------------------------------------------

  /** `Player`: `invincibilityTime` is in seconds, `lastShotTime` in
      milliseconds, `direction` is 1 (right) or -1 (left). */
  datatype Player = Player(
    body: Body,
    health: int,
    maxHealth: int,
    moveSpeed: real,
    shootInterval: int,
    lastShotTime: int,
    invincible: bool,
    invincibilityTime: real,
    direction: int,
    animation: Animation.SpriteAnimation)

  /** `new Player(x, y, imageLoader)`. */
  function NewPlayer(cfg: Config, x: real, y: real): (p: Player)
    ensures p.body == Body(x, y, cfg.playerWidth, cfg.playerHeight, 0.0, 0.0, true)
    ensures p.health == p.maxHealth == cfg.playerMaxHealth
    ensures !p.invincible && p.lastShotTime == 0 && p.direction == 1
  {
    Player(Body(x, y, cfg.playerWidth, cfg.playerHeight, 0.0, 0.0, true),
           cfg.playerMaxHealth, cfg.playerMaxHealth, cfg.playerMoveSpeed, cfg.playerShootInterval,
           0, false, 0.0, 1,
           Animation.NewAnimation(cfg.animationFrames, cfg.animationFrameDuration))
  }

  /** `Player.update(deltaTime)`: the base update, the walk animation, the
      invulnerability countdown, the lane clamp again and the bottom edge. */
  function PlayerStep(cfg: Config, p: Player, dt: real): (r: Player)
    ensures r.body.active <==> p.body.active && p.body.y + p.body.vy * dt <= cfg.canvasHeight
    ensures p.body.width <= LaneWidth ==>
      LaneLeft(cfg) <= r.body.x && r.body.x + r.body.width <= LaneRight(cfg)
    ensures r.body.y + r.body.height <= cfg.canvasHeight
    // the vertical step, stopped at the bottom edge
    ensures var y := p.body.y + p.body.vy * dt;
      && (y + p.body.height <= cfg.canvasHeight ==> r.body.y == y)
      && (y + p.body.height > cfg.canvasHeight ==> r.body.y == cfg.canvasHeight - p.body.height)
    // the horizontal step is the one of `Move`: the second lane check finds
    // nothing more to do for a body that fits the lane
    ensures p.body.width <= LaneWidth ==> r.body.x == Move(cfg, p.body, dt).x && r.body.vx == Move(cfg, p.body, dt).vx
    ensures r.body.vy == p.body.vy && r.body.width == p.body.width && r.body.height == p.body.height
    // invulnerability only runs out; it is never granted by the update
    ensures r.invincible ==> p.invincible && r.invincibilityTime > 0.0
    ensures p.invincible ==> r.invincibilityTime == p.invincibilityTime - dt
    ensures p.invincible && p.invincibilityTime - dt <= 0.0 ==> !r.invincible
    ensures r.health == p.health && r.lastShotTime == p.lastShotTime
    ensures r.animation == Animation.Step(p.animation, dt)
  {
    var b1 := Move(cfg, p.body, dt);
    var anim := Animation.Step(p.animation, dt);
    var timer := if p.invincible then p.invincibilityTime - dt else p.invincibilityTime;
    var inv := p.invincible && timer > 0.0;
    var b2 := ClampToLane(cfg, b1);
    var b3 := if b2.y + b2.height > cfg.canvasHeight then b2.(y := cfg.canvasHeight - b2.height) else b2;
    p.(body := b3, animation := anim, invincible := inv, invincibilityTime := timer)
  }

  /** `moveLeft`. */
  function MoveLeft(p: Player): (r: Player)
    ensures r.body.vx == -p.moveSpeed && r.direction == -1
    ensures r.(body := p.body, direction := p.direction) == p
    ensures r.body.(vx := p.body.vx) == p.body
  {
    p.(body := p.body.(vx := -p.moveSpeed), direction := -1)
  }

  /** `moveRight`. */
  function MoveRight(p: Player): (r: Player)
    ensures r.body.vx == p.moveSpeed && r.direction == 1
    ensures r.(body := p.body, direction := p.direction) == p
    ensures r.body.(vx := p.body.vx) == p.body
  {
    p.(body := p.body.(vx := p.moveSpeed), direction := 1)
  }

  /** `stopMoving` (also what input handling does with no intent). */
  function StopMoving(p: Player): (r: Player)
    ensures r.body.vx == 0.0 && r.(body := p.body) == p && r.body.(vx := p.body.vx) == p.body
  {
    p.(body := p.body.(vx := 0.0))
  }

  /** `autoMove`: upward at half the movement speed. */
  function AutoMove(p: Player): (r: Player)
    ensures r.body.vy == -p.moveSpeed * 0.5
    ensures p.moveSpeed > 0.0 ==> r.body.vy < 0.0
    ensures r.(body := p.body) == p && r.body.(vy := p.body.vy) == p.body
  {
    p.(body := p.body.(vy := -p.moveSpeed * 0.5))
  }

  /** Whether the fire interval has elapsed at time `now`. */
  predicate CanShoot(p: Player, now: int)
  {
    now - p.lastShotTime >= p.shootInterval
  }

  /** `shoot()`: a bullet iff the fire interval has elapsed, fired straight
      up from above the player's centre whatever the player's velocity. */
  function Shoot(cfg: Config, p: Player, now: int): (r: (Player, Option<Bullet>))
    ensures r.1.Some? <==> CanShoot(p, now)
    ensures CanShoot(p, now) ==> r.0 == p.(lastShotTime := now)
    ensures !CanShoot(p, now) ==> r.0 == p
    ensures r.1.Some? ==>
      && r.1.value.body.vx == 0.0
      && r.1.value.body.vy == -cfg.bulletSpeed
      && r.1.value.owner == PlayerOwned
      && r.1.value.damage == cfg.bulletDamage
      && r.1.value.body.active
      && r.1.value.body.x + cfg.bulletWidth / 2.0 == p.body.x + p.body.width / 2.0
      && r.1.value.body.y + cfg.bulletHeight == p.body.y
  {
    if now - p.lastShotTime >= p.shootInterval then
      var b := NewBullet(cfg, p.body.x + p.body.width / 2.0 - cfg.bulletWidth / 2.0,
                         p.body.y - cfg.bulletHeight, 0.0, -cfg.bulletSpeed, cfg.bulletDamage, PlayerOwned);
      (p.(lastShotTime := now), Some(b))
    else (p, None)
  }

  /** `Player.takeDamage(damage)`: refused while invulnerable; otherwise
      health drops (clamped at 0, which destroys the player) and the
      invulnerability window starts. */
  function PlayerTakeDamage(cfg: Config, p: Player, damage: int): (r: (Player, bool))
    ensures p.invincible ==> r == (p, false)
    ensures !p.invincible ==>
      && r.1
      && r.0.invincible
      && r.0.invincibilityTime == cfg.invincibilityTime / 1000.0
      && r.0.health == MaxInt(0, p.health - damage)
      && (r.0.body.active <==> p.body.active && p.health - damage > 0)
    ensures Bounds(r.0.body) == Bounds(p.body)
    ensures r.0.body.(active := p.body.active) == p.body
    ensures r.0.(health := p.health, invincible := p.invincible,
                 invincibilityTime := p.invincibilityTime, body := p.body) == p
  {
    if p.invincible then (p, false)
    else
      var health := p.health - damage;
      var q := p.(health := health, invincible := true, invincibilityTime := cfg.invincibilityTime / 1000.0);
      if health <= 0 then (q.(health := 0, body := Destroy(q.body)), true) else (q, true)
  }

  /** A lethal hit: a vulnerable player at 1 health hit for 5
      ends at 0 health and destroyed. */
  lemma LethalHitClampsAtZero(cfg: Config, p: Player)
    requires !p.invincible && p.health == 1
    ensures PlayerTakeDamage(cfg, p, 5).0.health == 0
    ensures !PlayerTakeDamage(cfg, p, 5).0.body.active
  {
  }

  /** Two hits with no update in between: only the first one lands. */
  lemma SecondHitIsRefused(cfg: Config, p: Player, d1: int, d2: int)
    ensures var (q, _) := PlayerTakeDamage(cfg, p, d1);
            PlayerTakeDamage(cfg, q, d2) == (q, false)
  {
  }

  /** A hit lands again once the invulnerability window has been counted
      down by the frame updates in between. */
  lemma HitLandsAfterWindow(cfg: Config, p: Player, dt: real)
    requires p.invincible && p.invincibilityTime - dt <= 0.0
    ensures PlayerTakeDamage(cfg, PlayerStep(cfg, p, dt), 1).1
  {
  }

  /** `heal(amount)`: capped at the maximum health. */
  function Heal(p: Player, amount: int): (r: Player)
    ensures r.health == MinInt(p.maxHealth, p.health + amount)
    ensures p.health <= p.maxHealth && amount >= 0 ==> p.health <= r.health <= p.maxHealth
    ensures r.(health := p.health) == p
  {
    p.(health := if p.maxHealth <= p.health + amount then p.maxHealth else p.health + amount)
  }

  // ---------------------------------------------------------------------
  // Enemy
  // ---------------------------------------------------------------------

  /** `Enemy` and its three subclasses, told apart by `kind`. */
  datatype Enemy = Enemy(
    body: Body,
    kind: EnemyKind,
    health: int,
    maxHealth: int,
    damage: int,
    lastAttackTime: int,
    invincible: bool,
    invincibleDistance: real)

  /** `new BarrelMonster(x, y)` / `new GiantMelee(x, y)` / `new UFOTurret(x, y)`:
      active, invulnerable, never attacked yet. */
  function NewEnemy(cfg: Config, kind: EnemyKind, x: real, y: real): (e: Enemy)
    ensures e.body.active && e.invincible && e.kind == kind
    ensures e.body.x == x && e.body.y == y
    ensures e.health == e.maxHealth == Stats(cfg, kind).health
    ensures e.lastAttackTime == 0 && e.invincibleDistance == cfg.monsterInvincibleDistance
  {
    var s := Stats(cfg, kind);
    Enemy(Body(x, y, s.width, s.height, 0.0, 0.0, true), kind, s.health, s.health, s.damage, 0, true,
          cfg.monsterInvincibleDistance)
  }

  /** `distance > invincibleDistance` with `distance` the Euclidean distance
      between the two top-left corners, without the square root: for
      `d < 0` every distance exceeds it, otherwise compare squares. */
  predicate FartherThan(dx: real, dy: real, d: real)
  {
    d < 0.0 || dx * dx + dy * dy > d * d
  }

  /** `checkInvincibility(player)`: invulnerable with no live player, else
      exactly when farther than the threshold; recomputed on every call. */
  function CheckInvincibility(e: Enemy, player: Option<Body>): (r: Enemy)
    ensures player.None? || !player.value.active ==> r.invincible
    ensures player.Some? && player.value.active ==>
      r.invincible == FartherThan(e.body.x - player.value.x, e.body.y - player.value.y, e.invincibleDistance)
    ensures r.(invincible := e.invincible) == e
  {
    match player
    case None => e.(invincible := true)
    case Some(p) =>
      if !p.active then e.(invincible := true)
      else e.(invincible := FartherThan(e.body.x - p.x, e.body.y - p.y, e.invincibleDistance))
  }

  /** No hysteresis: the flag depends only on the current positions, so
      the enemy's previous flag is irrelevant. */
  lemma InvincibilityIsMemoryless(e: Enemy, player: Option<Body>, earlier: bool)
    ensures CheckInvincibility(e.(invincible := earlier), player) == CheckInvincibility(e, player)
  {
  }

  /** At threshold 1800: one pixel beyond is
      invulnerable, one pixel within is not. */
  lemma InvincibilityThresholdExample(e: Enemy, p: Body)
    requires e.invincibleDistance == 1800.0 && p.active && e.body.y == p.y
    ensures e.body.x == p.x + 1801.0 ==> CheckInvincibility(e, Some(p)).invincible
    ensures e.body.x == p.x + 1799.0 ==> !CheckInvincibility(e, Some(p)).invincible
  {
  }

  /** The squared comparison decides the same as comparing the true
      distance `dist >= 0` (with `dist * dist == dx*dx + dy*dy`). */
  lemma FartherThanMatchesDistance(dx: real, dy: real, d: real, dist: real)
    requires dist >= 0.0 && dist * dist == dx * dx + dy * dy
    ensures FartherThan(dx, dy, d) <==> dist > d
  {
    if d >= 0.0 {
      if dist > d {
        ProductPositive(dist - d, dist + d);
        assert dist * dist - d * d == (dist - d) * (dist + d);
      } else {
        ProductNonNegative(d - dist, d + dist);
        assert d * d - dist * dist == (d - dist) * (d + dist);
      }
    }
  }

  lemma ProductPositive(a: real, b: real)
    requires a > 0.0 && b > 0.0
    ensures a * b > 0.0
  {
  }

  lemma ProductNonNegative(a: real, b: real)
    requires a >= 0.0 && b >= 0.0
    ensures a * b >= 0.0
  {
  }

  /** `Enemy.update(deltaTime, player)` for all three kinds: the base
      update, the invulnerability check at the new position, standing
      still, destruction below the canvas and the lane clamp. */
  function EnemyStep(cfg: Config, e: Enemy, dt: real, player: Option<Body>): (r: Enemy)
    ensures r.body.vx == 0.0 && r.body.vy == 0.0
    ensures r.body.active <==> e.body.active && e.body.y + e.body.vy * dt <= cfg.canvasHeight
    ensures e.body.width <= LaneWidth ==>
      LaneLeft(cfg) <= r.body.x && r.body.x + r.body.width <= LaneRight(cfg)
    // the flag reflects the enemy's position at the end of the update
    ensures player.Some? && player.value.active && e.body.width <= LaneWidth ==>
      r.invincible == FartherThan(r.body.x - player.value.x, r.body.y - player.value.y, e.invincibleDistance)
    ensures player.None? || !player.value.active ==> r.invincible
    ensures r.(body := e.body, invincible := e.invincible) == e
    // the position is the one of the base object's step
    ensures r.body.y == e.body.y + e.body.vy * dt
    ensures e.body.width <= LaneWidth ==> r.body.x == Move(cfg, e.body, dt).x
  {
    var moved := e.(body := Move(cfg, e.body, dt));
    var checked := CheckInvincibility(moved, player);
    var still := checked.body.(vx := 0.0, vy := 0.0);
    var below := if still.y > cfg.canvasHeight then Destroy(still) else still;
    checked.(body := ClampToLane(cfg, below))
  }

  /** `Enemy.takeDamage(damage)`: ignored while invulnerable; otherwise
      health drops and the result says whether the enemy died. */
  function EnemyTakeDamage(e: Enemy, damage: int): (r: (Enemy, bool))
    ensures e.invincible ==> r == (e, false)
    ensures !e.invincible ==> r.0.health == e.health - damage
    ensures !e.invincible ==> (r.1 <==> e.health - damage <= 0)
    ensures r.1 ==> !r.0.body.active
    ensures !r.1 ==> r.0.body.active == e.body.active
    ensures r.0.body.(active := e.body.active) == e.body
    ensures r.0.(health := e.health, body := e.body) == e
  {
    if e.invincible then (e, false)
    else
      var health := e.health - damage;
      if health <= 0 then (e.(health := health, body := Destroy(e.body)), true)
      else (e.(health := health), false)
  }

  /** The base class's `getAttackCooldown()`, in milliseconds. */
  const DefaultAttackCooldown: int := 1000

  /** `getAttackCooldown()` in milliseconds, per kind. Barrel monsters and
      giants read their configured cooldown; the UFO turret does not
      override the method and keeps the base class's fixed second. */
  function AttackCooldown(cfg: Config, e: Enemy): (r: int)
    ensures e.kind == UFOTurret ==> r == DefaultAttackCooldown
    ensures e.kind != UFOTurret ==> r == Stats(cfg, e.kind).attackCooldown
  {
    match e.kind
    case BarrelMonster => cfg.barrel.attackCooldown
    case GiantMelee => cfg.giant.attackCooldown
    case UFOTurret => DefaultAttackCooldown
  }

  /** A UFO turret's contact gate ignores the configuration: it may attack
      again exactly when a full second has passed since its last attack,
      whatever cooldown is configured for its kind. */
  lemma UfoCooldownIsFixed(cfg: Config, cfg': Config, e: Enemy, now: int)
    requires e.kind == UFOTurret
    ensures CanAttack(cfg, e, now) <==> now - e.lastAttackTime >= 1000
    ensures CanAttack(cfg, e, now) == CanAttack(cfg', e, now)
  {
  }

  /** A barrel monster's or giant's gate follows its configured cooldown. */
  lemma ConfiguredCooldownGates(cfg: Config, e: Enemy, now: int)
    requires e.kind != UFOTurret
    ensures CanAttack(cfg, e, now) <==> now - e.lastAttackTime >= Stats(cfg, e.kind).attackCooldown
  {
  }

  /** `canAttack()`. */
  predicate CanAttack(cfg: Config, e: Enemy, now: int)
  {
    now - e.lastAttackTime >= AttackCooldown(cfg, e)
  }

  // ---------------------------------------------------------------------
  // Obstacle
  // ---------------------------------------------------------------------

  /** `Obstacle` (and its one subclass `JunkPile`, flagged by `junk`).
      `lastDamageTime` is the contact-damage timestamp the engine attaches,
      absent until first set. */
  datatype Obstacle = Obstacle(
    body: Body,
    damage: int,
    destroyable: bool,
    health: int,
    junk: bool,
    lastDamageTime: Option<int>)

  /** `Obstacle.takeDamage(damage)`: only destroyable obstacles lose health;
      the result says whether it was destroyed. */
  function ObstacleTakeDamage(o: Obstacle, damage: int): (r: (Obstacle, bool))
    ensures !o.destroyable ==> r == (o, false)
    ensures o.destroyable ==> r.0.health == o.health - damage && (r.1 <==> o.health - damage <= 0)
    ensures r.1 ==> !r.0.body.active
    ensures !r.1 ==> r.0.body.active == o.body.active
    ensures r.0.body.(active := o.body.active) == o.body
    ensures r.0.(health := o.health, body := o.body) == o
  {
    if o.destroyable then
      var health := o.health - damage;
      if health <= 0 then (o.(health := health, body := Destroy(o.body)), true)
      else (o.(health := health), false)
    else (o, false)
  }

  // ---------------------------------------------------------------------
  // Particles
  // ---------------------------------------------------------------------

  /** `Particle`: `lifetime` counts down in milliseconds. Its size and
      colour are cosmetic and not modelled. */
  datatype Particle = Particle(x: real, y: real, vx: real, vy: real, lifetime: real, maxLifetime: real, active: bool)

  /** `Particle.update(deltaTime)`. */
  function ParticleStep(p: Particle, dt: real): (r: Particle)
    ensures r.lifetime == p.lifetime - dt * 1000.0
    ensures r.active <==> p.active && r.lifetime > 0.0
    ensures r.maxLifetime == p.maxLifetime
  {
    var q := p.(x := p.x + p.vx * dt, y := p.y + p.vy * dt, lifetime := p.lifetime - dt * 1000.0);
    if q.lifetime <= 0.0 then q.(active := false) else q
  }

  predicate ParticleAlive(p: Particle) { p.active }

  /** `ParticleSystem.update(deltaTime)`: step every particle, keep the
      live ones in order. */
  function UpdateParticles(ps: seq<Particle>, dt: real): (r: seq<Particle>)
    ensures |r| <= |ps|
    ensures forall i :: 0 <= i < |r| ==> r[i].active && r[i].lifetime > 0.0
    ensures forall i :: 0 <= i < |ps| && ParticleStep(ps[i], dt).active ==> ParticleStep(ps[i], dt) in r
    ensures forall i :: 0 <= i < |r| ==> exists j :: 0 <= j < |ps| && r[i] == ParticleStep(ps[j], dt)
  {
    if |ps| == 0 then []
    else
      var q := ParticleStep(ps[0], dt);
      var rest := UpdateParticles(ps[1..], dt);
      assert forall i :: 0 <= i < |ps| - 1 ==> ps[1..][i] == ps[i + 1];
      if q.active then [q] + rest else rest
  }

  /** Each particle's step applied to the whole list, as a reference. */
  function StepAll(ps: seq<Particle>, dt: real): (r: seq<Particle>)
    ensures |r| == |ps| && forall i :: 0 <= i < |ps| ==> r[i] == ParticleStep(ps[i], dt)
  {
    if |ps| == 0 then [] else [ParticleStep(ps[0], dt)] + StepAll(ps[1..], dt)
  }

  /** The particle sweep is exactly "step every particle, then filter the
      live ones". */
  lemma {:induction false} UpdateParticlesIsStepThenFilter(ps: seq<Particle>, dt: real)
    ensures UpdateParticles(ps, dt) == Filter(StepAll(ps, dt), ParticleAlive)
  {
    if |ps| > 0 {
      UpdateParticlesIsStepThenFilter(ps[1..], dt);
      assert StepAll(ps, dt)[1..] == StepAll(ps[1..], dt);
    }
  }
}

=== FILE: settings.dfy ===
/** The game's `CONFIG` object as an immutable value. The simulation reads
    these keys (`GAME.CANVAS_WIDTH`, `PLAYER.*`, `BALANCE.*`, `ENEMIES.*`,
    `BULLETS.ENEMY_BULLET.*`, `LEVELS`); every one is a parameter here, so
    each property holds for every configuration that satisfies its stated
    precondition. */
module Settings {
  import opened Common

  datatype EnemyKind = BarrelMonster | GiantMelee | UFOTurret

  /** The per-kind `CONFIG.ENEMIES.<KIND>` entries the simulation reads.
      `attackCooldown` is read for barrel monsters and giants only; the UFO
      turret's entry is never consulted for it. */
  datatype EnemyStats = EnemyStats(width: real, height: real, health: int, damage: int, attackCooldown: int)

  /** One entry of `CONFIG.LEVELS`; `duration` is in milliseconds. */
  datatype LevelConfig = LevelConfig(duration: int)

  datatype Config = Config(
    canvasWidth: real,
    canvasHeight: real,
    playerWidth: real,
    playerHeight: real,
    playerMaxHealth: int,
    playerMoveSpeed: real,
    playerShootInterval: int,     // milliseconds
    playerStartX: real,
    playerStartY: real,
    bulletSpeed: real,            // PLAYER.BULLET_SPEED, pixels per second
    bulletWidth: real,
    bulletHeight: real,
    bulletDamage: int,
    enemyBulletWidth: real,
    enemyBulletHeight: real,
    animationFrames: seq<string>,
    animationFrameDuration: real, // milliseconds
    invincibilityTime: real,      // BALANCE.INVINCIBILITY_TIME, milliseconds
    monsterInvincibleDistance: real,
    scorePerEnemy: int,
    scorePerObstacle: int,
    barrel: EnemyStats,
    giant: EnemyStats,
    ufo: EnemyStats,
    levels: seq<LevelConfig>)

  /** Width of the horizontal play lane every actor is clamped into. */
  const LaneWidth: real := 720.0

  /** `playAreaLeft`: the lane is centred on the canvas. */
  function LaneLeft(cfg: Config): real { (cfg.canvasWidth - LaneWidth) / 2.0 }

  /** `playAreaRight`. */
  function LaneRight(cfg: Config): real { LaneLeft(cfg) + LaneWidth }

  function Stats(cfg: Config, kind: EnemyKind): EnemyStats
  {
    match kind
    case BarrelMonster => cfg.barrel
    case GiantMelee => cfg.giant
    case UFOTurret => cfg.ufo
  }

  /** `CONFIG.LEVELS[level - 1]`, which is `undefined` outside the table. */
  function LevelAt(cfg: Config, level: int): (r: Option<LevelConfig>)
    ensures r.Some? <==> 1 <= level <= |cfg.levels|
    ensures r.Some? ==> r.value in cfg.levels
    // levels are numbered from 1
    ensures r.Some? ==> r.value == cfg.levels[level - 1]
  {
    if 1 <= level <= |cfg.levels| then Some(cfg.levels[level - 1]) else None
  }

  /** `CONFIG.LEVELS[level - 1] || CONFIG.LEVELS[0]`: a missing level falls
      back to the first one. The source dereferences the result, so an empty
      level table is outside its domain. */
  function LevelOrFirst(cfg: Config, level: int): (r: LevelConfig)
    requires |cfg.levels| > 0
    ensures LevelAt(cfg, level).Some? ==> r == LevelAt(cfg, level).value
    ensures LevelAt(cfg, level).None? ==> r == cfg.levels[0]
  {
    match LevelAt(cfg, level)
    case Some(l) => l
    case None => cfg.levels[0]
  }
}

=== FILE: spawning.dfy ===
/** The spawn scheduler of gameEngine.js: level pre-generation
    (`preSpawnEnemies`), lazy activation of the pending pool
    (`spawnEnemies`) and the overlap-free position search
    (`findValidSpawnPosition`). Every `Math.random()` result is an input. */
module Spawning {
  import opened Common
  import opened Settings
  import opened Entities

  // ---------------------------------------------------------------------
  // Density curve
  // ---------------------------------------------------------------------

  /** The density multiplier over level progress: a four-segment
      piecewise-linear ramp 0.3 -> 0.7 -> 1.5 -> 2.3 -> 3.0 with breaks at
      0.2, 0.5 and 0.8. */
  function Density(progress: real): real
  {
    if progress < 0.2 then 0.3 + (progress / 0.2) * 0.4
    else if progress < 0.5 then 0.7 + ((progress - 0.2) / 0.3) * 0.8
    else if progress < 0.8 then 1.5 + ((progress - 0.5) / 0.3) * 0.8
    else 2.3 + ((progress - 0.8) / 0.2) * 0.7
  }

  /** The ramp's values at the start, the three breaks and the end. */
  lemma DensityKnots()
    ensures Density(0.0) == 0.3 && Density(0.2) == 0.7 && Density(0.5) == 1.5
    ensures Density(0.8) == 2.3 && Density(1.0) == 3.0
  {
  }

  /** The segment of the ramp a progress value falls in. */
  function Segment(p: real): int
  {
    if p < 0.2 then 0 else if p < 0.5 then 1 else if p < 0.8 then 2 else 3
  }

  /** The right end of segment `s < 3`. */
  function Knot(s: int): real
  {
    if s == 0 then 0.2 else if s == 1 then 0.5 else 0.8
  }

  /** Within one segment, right end included, the ramp is one line. */
  lemma DensityOnSegment(p: real, q: real)
    requires p <= q
    requires Segment(p) == Segment(q) || (Segment(p) < 3 && q == Knot(Segment(p)))
    ensures Density(p) <= Density(q) <= Density(p) + 3.5 * (q - p)
  {
  }

  /** The ramp never falls, and never rises faster than its steepest
      segment (slope 3.5); in particular it is continuous at every break. */
  lemma {:induction false} DensityMonotoneAndLipschitz(p: real, q: real)
    requires p <= q
    ensures Density(p) <= Density(q) <= Density(p) + 3.5 * (q - p)
    decreases Segment(q) - Segment(p)
  {
    if Segment(p) == Segment(q) {
      DensityOnSegment(p, q);
    } else {
      var k := Knot(Segment(p));
      DensityOnSegment(p, k);
      DensityMonotoneAndLipschitz(k, q);
    }
  }

  // ---------------------------------------------------------------------
  // Pre-generation
  // ---------------------------------------------------------------------

  /** `enemySpawnDistance`: one row of enemies every 300 pixels. */
  const SpawnSpacing: real := 300.0

  /** `Math.random()` results: `rnd(k, s)` is the `s`-th draw made while
      generating row `k` (draw 0 flags a giant row, draw 1 picks the base
      count, then three per enemy: type, x, y). */
  type Draws = (nat, nat) -> real

  /** `Math.random()` returns values in [0, 1). */
  ghost predicate UnitDraws(rnd: Draws)
  {
    forall k: nat, s: nat :: 0.0 <= rnd(k, s) < 1.0
  }

  /** The row-size cap: 2 in a row flagged as holding a giant, 3 otherwise. */
  function RowCap(giant: bool): int { if giant then 2 else 3 }

  /** A row is flagged as a giant row with probability 0.3. */
  predicate GiantRow(rnd: Draws, k: nat) { rnd(k, 0) < 0.3 }

  /** `enemyCount` of row `k` at level progress `progress`: base count,
      capped, scaled by the density, floored and capped again. */
  function RowEnemyCount(rnd: Draws, k: nat, progress: real): (n: int)
    ensures n <= RowCap(GiantRow(rnd, k))
    // from the start of the level a row is never negative, and from half
    // way on, where the density reaches 1.5, it holds at least one enemy
    ensures UnitDraws(rnd) && progress >= 0.0 ==> n >= 0
    ensures UnitDraws(rnd) && progress >= 0.5 ==> n >= 1
  {
    var cap := RowCap(GiantRow(rnd, k));
    var base := (rnd(k, 1) * cap as real).Floor + 1;
    var count := MinInt(base, cap);
    assert 0.0 <= rnd(k, 1) ==> count >= 1;
    assert progress >= 0.0 ==> Density(progress) >= 0.3;
    assert progress >= 0.5 ==> Density(progress) >= 1.5;
    MinInt((count as real * Density(progress)).Floor, cap)
  }

  /** With the same draws, a row further into the level never holds fewer
      enemies: the count follows the rising density ramp. */
  lemma RowEnemyCountMonotone(rnd: Draws, k: nat, p: real, q: real)
    requires UnitDraws(rnd) && p <= q
    ensures RowEnemyCount(rnd, k, p) <= RowEnemyCount(rnd, k, q)
  {
    DensityMonotoneAndLipschitz(p, q);
    var cap := RowCap(GiantRow(rnd, k));
    var count := MinInt((rnd(k, 1) * cap as real).Floor + 1, cap);
    assert count >= 1;
    assert count as real * Density(p) <= count as real * Density(q);
  }

  /** `availableTypes`: a giant row offers only the giant unless it holds
      more than one enemy. */
  function RowKinds(giant: bool, count: int): (r: seq<EnemyKind>)
    ensures !giant ==> GiantMelee !in r
    ensures giant && count <= 1 ==> r == [GiantMelee]
    ensures |r| > 0
  {
    if giant then (if count > 1 then [GiantMelee, BarrelMonster, UFOTurret] else [GiantMelee])
    else [BarrelMonster, UFOTurret]
  }

  /** A generated enemy waits in the pending pool inactive. */
  function Dormant(e: Enemy): (r: Enemy)
    ensures !r.body.active && r.(body := e.body) == e && r.body.(active := e.body.active) == e.body
  {
    e.(body := e.body.(active := false))
  }

  /** The enemies `i, i+1, ..., count-1` of row `k` at distance `distance`.
      A type draw that indexes outside `kinds` yields no enemy, as the
      source's `switch` then constructs nothing. */
  function RowEnemies(cfg: Config, rnd: Draws, k: nat, distance: real, kinds: seq<EnemyKind>,
                      count: int, i: nat): (r: seq<Enemy>)
    ensures |r| <= MaxInt(0, count - i)
    // with draws from [0, 1) every type draw hits the list: one enemy each
    ensures UnitDraws(rnd) && |kinds| > 0 ==> |r| == MaxInt(0, count - i)
    ensures forall j :: 0 <= j < |r| ==> !r[j].body.active && r[j].invincible && r[j].kind in kinds
    ensures UnitDraws(rnd) ==> forall j :: 0 <= j < |r| ==> -distance <= r[j].body.y < -distance + 100.0
    decreases count - i
  {
    if i >= count then []
    else
      var t := (rnd(k, 2 + 3 * i) * |kinds| as real).Floor;
      var x := cfg.canvasWidth / 2.0 + (rnd(k, 3 + 3 * i) - 0.5) * 400.0;
      var y := -distance + rnd(k, 4 + 3 * i) * 100.0;
      var rest := RowEnemies(cfg, rnd, k, distance, kinds, count, i + 1);
      if 0 <= t < |kinds| then [Dormant(NewEnemy(cfg, kinds[t], x, y))] + rest else rest
  }

  /** One row of `preSpawnEnemies` at distance `300 * k` of a level whose
      length is `total`. */
  function Row(cfg: Config, rnd: Draws, k: nat, total: real): (r: seq<Enemy>)
    requires 0.0 < SpawnSpacing * k as real < total
    ensures |r| <= RowCap(GiantRow(rnd, k))
    ensures UnitDraws(rnd) ==> |r| == MaxInt(0, RowEnemyCount(rnd, k, SpawnSpacing * k as real / total))
    ensures !GiantRow(rnd, k) ==> forall j :: 0 <= j < |r| ==> r[j].kind != GiantMelee
    ensures forall j :: 0 <= j < |r| ==> !r[j].body.active && r[j].invincible
    ensures UnitDraws(rnd) ==> forall j :: 0 <= j < |r| ==>
      -(SpawnSpacing * k as real) <= r[j].body.y < -(SpawnSpacing * k as real) + 100.0
  {
    var distance := SpawnSpacing * k as real;
    var count := RowEnemyCount(rnd, k, distance / total);
    var kinds := RowKinds(GiantRow(rnd, k), count);
    var r := RowEnemies(cfg, rnd, k, distance, kinds, count, 0);
    assert |kinds| > 0;
    r
  }

  /** The rows `k, k+1, ...` that lie before the end of the level. */
  function Rows(cfg: Config, rnd: Draws, k: nat, total: real): (r: seq<Enemy>)
    requires k >= 1
    ensures forall j :: 0 <= j < |r| ==> !r[j].body.active && r[j].invincible
    ensures UnitDraws(rnd) ==> forall j :: 0 <= j < |r| ==>
      -total < r[j].body.y < -(SpawnSpacing * k as real) + 100.0
    decreases if SpawnSpacing * k as real < total then (total / SpawnSpacing).Floor + 1 - k else 0
  {
    if SpawnSpacing * k as real < total then
      Row(cfg, rnd, k, total) + Rows(cfg, rnd, k + 1, total)
    else []
  }

  /** The estimated level length: duration in seconds times half the
      player's movement speed (the upward auto-move speed). */
  function LevelLength(cfg: Config, level: int, moveSpeed: real): real
    requires |cfg.levels| > 0
  {
    (LevelOrFirst(cfg, level).duration as real / 1000.0) * moveSpeed * 0.5
  }

  /** `preSpawnEnemies()`: the whole level's enemies, all inactive and
      invulnerable, placed above the start at most 200 pixels in front of
      the first row. */
  function PreSpawn(cfg: Config, rnd: Draws, level: int, moveSpeed: real): (r: seq<Enemy>)
    requires |cfg.levels| > 0
    ensures forall j :: 0 <= j < |r| ==> !r[j].body.active && r[j].invincible
    ensures UnitDraws(rnd) ==> forall j :: 0 <= j < |r| ==>
      -LevelLength(cfg, level, moveSpeed) < r[j].body.y < -200.0
    ensures LevelLength(cfg, level, moveSpeed) <= SpawnSpacing ==> r == []
  {
    Rows(cfg, rnd, 1, LevelLength(cfg, level, moveSpeed))
  }

  // ---------------------------------------------------------------------
  // Activation
  // ---------------------------------------------------------------------

  /** A pending enemy that is inactive and less than 1.5 canvas heights
      below the player's line wakes up this frame. */
  predicate Wakes(e: Enemy, playerY: real, canvasHeight: real)
  {
    !e.body.active && e.body.y - playerY < canvasHeight * 1.5
  }

  predicate Sleeps(e: Enemy, playerY: real, canvasHeight: real)
  {
    !e.body.active && !(e.body.y - playerY < canvasHeight * 1.5)
  }

  function Activate(e: Enemy): (r: Enemy)
    ensures r.body.active && Dormant(r) == Dormant(e)
  {
    e.(body := e.body.(active := true))
  }

  predicate AllDormant(s: seq<Enemy>)
  {
    forall j :: 0 <= j < |s| ==> !s[j].body.active
  }

  /** The loop and the filter of `spawnEnemies`, fused into one pass over
      the pending pool: returns the enemies still pending and the newly
      activated ones, in pool order. A pending enemy that is already active
      is neither activated nor kept (the filter drops it). */
  function Wake(pending: seq<Enemy>, playerY: real, canvasHeight: real): (r: (seq<Enemy>, seq<Enemy>))
    ensures forall j :: 0 <= j < |r.0| ==> Sleeps(r.0[j], playerY, canvasHeight)
    ensures forall j :: 0 <= j < |r.1| ==> r.1[j].body.active && r.1[j].body.y - playerY < canvasHeight * 1.5
    ensures |r.0| + |r.1| <= |pending|
    ensures AllDormant(pending) ==> |r.0| + |r.1| == |pending|
  {
    if |pending| == 0 then ([], [])
    else
      var e := pending[0];
      var rest := Wake(pending[1..], playerY, canvasHeight);
      if Wakes(e, playerY, canvasHeight) then (rest.0, [Activate(e)] + rest.1)
      else if !e.body.active then ([e] + rest.0, rest.1)
      else rest
  }

  /** `spawnEnemies()`: move the pending enemies that wake into the active
      list, appended in pool order. */
  function SpawnEnemies(pending: seq<Enemy>, enemies: seq<Enemy>, playerY: real, canvasHeight: real)
    : (r: (seq<Enemy>, seq<Enemy>))
    ensures AllDormant(r.0)
    ensures forall j :: 0 <= j < |r.0| ==> !(r.0[j].body.y - playerY < canvasHeight * 1.5)
    ensures |r.1| >= |enemies| && r.1[..|enemies|] == enemies
    ensures forall j :: |enemies| <= j < |r.1| ==> r.1[j].body.active
    // no pending enemy is lost or duplicated
    ensures AllDormant(pending) ==> |r.0| + |r.1| == |pending| + |enemies|
  {
    var w := Wake(pending, playerY, canvasHeight);
    assert (enemies + w.1)[..|enemies|] == enemies;
    (w.0, enemies + w.1)
  }

  function WakeTest(playerY: real, canvasHeight: real): Enemy -> bool
  {
    e => Wakes(e, playerY, canvasHeight)
  }

  function SleepTest(playerY: real, canvasHeight: real): Enemy -> bool
  {
    e => !Wakes(e, playerY, canvasHeight)
  }

  function ActivateAll(s: seq<Enemy>): (r: seq<Enemy>)
    ensures |r| == |s| && forall j :: 0 <= j < |s| ==> r[j] == Activate(s[j])
  {
    if |s| == 0 then [] else [Activate(s[0])] + ActivateAll(s[1..])
  }

  function DormantAll(s: seq<Enemy>): (r: seq<Enemy>)
    ensures |r| == |s| && forall j :: 0 <= j < |s| ==> r[j] == Dormant(s[j])
  {
    if |s| == 0 then [] else [Dormant(s[0])] + DormantAll(s[1..])
  }

  /** Against a reference written with the generic filter: when every
      pending enemy is inactive, the activated ones are exactly the waking
      ones, activated, and the pool keeps exactly the others. */
  lemma {:induction false} WakeIsFilter(pending: seq<Enemy>, playerY: real, canvasHeight: real)
    requires AllDormant(pending)
    ensures Wake(pending, playerY, canvasHeight).1 == ActivateAll(Filter(pending, WakeTest(playerY, canvasHeight)))
    ensures Wake(pending, playerY, canvasHeight).0 == Filter(pending, SleepTest(playerY, canvasHeight))
  {
    if |pending| > 0 {
      WakeIsFilter(pending[1..], playerY, canvasHeight);
      assert WakeTest(playerY, canvasHeight)(pending[0]) == Wakes(pending[0], playerY, canvasHeight);
      assert SleepTest(playerY, canvasHeight)(pending[0]) == !Wakes(pending[0], playerY, canvasHeight);
    }
  }

  /** Conservation: putting the activated enemies back to sleep and joining
      them with the remaining pool gives back the original pool. */
  lemma {:induction false} WakeConserves(pending: seq<Enemy>, playerY: real, canvasHeight: real)
    requires AllDormant(pending)
    ensures var w := Wake(pending, playerY, canvasHeight);
            multiset(w.0) + multiset(DormantAll(w.1)) == multiset(pending)
  {
    if |pending| > 0 {
      WakeConserves(pending[1..], playerY, canvasHeight);
      var e := pending[0];
      var rest := Wake(pending[1..], playerY, canvasHeight);
      assert pending == [e] + pending[1..];
      if Wakes(e, playerY, canvasHeight) {
        assert Dormant(Activate(e)) == e;
        assert DormantAll([Activate(e)] + rest.1) == [e] + DormantAll(rest.1);
      }
    }
  }

  // ---------------------------------------------------------------------
  // Position search
  // ---------------------------------------------------------------------

  /** The free space the search keeps between two enemies, beyond half
      their larger width plus half their larger height. */
  const SpawnPadding: real := 50.0

  /** The number of random positions tried before giving up. */
  const MaxSpawnAttempts: nat := 20

  /** The candidate of attempt `a`: x anywhere across the canvas width,
      y 800 to 1200 pixels in front of the player's line, then clamped. */
  function Candidate(cfg: Config, rnd: nat -> real, a: nat, playerY: real, width: real, height: real): (real, real)
  {
    var x := rnd(2 * a) * (cfg.canvasWidth - width);
    var y := playerY - 800.0 - rnd(2 * a + 1) * 400.0;
    (Max(0.0, Min(cfg.canvasWidth - width, x)), Max(-height, y))
  }

  /** An active enemy closer than the required spacing to `(px, py)`:
      `distance < minDistance` compared without the square root. */
  predicate Blocks(e: Enemy, px: real, py: real, width: real, height: real)
  {
    var m := Max(width, e.body.width) / 2.0 + Max(height, e.body.height) / 2.0 + SpawnPadding;
    var dx := px - e.body.x;
    var dy := py - e.body.y;
    e.body.active && m > 0.0 && dx * dx + dy * dy < m * m
  }

  predicate Clear(enemies: seq<Enemy>, px: real, py: real, width: real, height: real)
  {
    forall j :: 0 <= j < |enemies| ==> !Blocks(enemies[j], px, py, width, height)
  }

  /** `findValidSpawnPosition(width, height)`: the first of 20 candidates
      that no active enemy blocks, or nothing. The player's line falls back
      to mid-canvas when there is no player. */
  method FindValidSpawnPosition(cfg: Config, player: Option<Body>, enemies: seq<Enemy>,
                                width: real, height: real, rnd: nat -> real)
    returns (pos: Option<(real, real)>)
    ensures pos.Some? ==> 0.0 <= pos.value.0 && pos.value.1 >= -height
    ensures pos.Some? && width <= cfg.canvasWidth ==> pos.value.0 <= cfg.canvasWidth - width
    ensures pos.Some? ==> Clear(enemies, pos.value.0, pos.value.1, width, height)
    ensures var playerY := if player.Some? then player.value.y else cfg.canvasHeight / 2.0;
      && (pos.Some? ==> exists a :: 0 <= a < MaxSpawnAttempts &&
                          pos.value == Candidate(cfg, rnd, a, playerY, width, height) &&
                          forall b :: 0 <= b < a ==>
                            var c := Candidate(cfg, rnd, b, playerY, width, height);
                            !Clear(enemies, c.0, c.1, width, height))
      && (pos.None? <==> forall a :: 0 <= a < MaxSpawnAttempts ==>
                          var c := Candidate(cfg, rnd, a, playerY, width, height);
                          !Clear(enemies, c.0, c.1, width, height))
  {
    var playerY := if player.Some? then player.value.y else cfg.canvasHeight / 2.0;
    var attempt: nat := 0;
    while attempt < MaxSpawnAttempts
      invariant attempt <= MaxSpawnAttempts
      invariant forall b :: 0 <= b < attempt ==>
        var c := Candidate(cfg, rnd, b, playerY, width, height);
        !Clear(enemies, c.0, c.1, width, height)
    {
      var c := Candidate(cfg, rnd, attempt, playerY, width, height);
      var ok := IsClear(enemies, c.0, c.1, width, height);
      if ok {
        return Some(c);
      }
      attempt := attempt + 1;
    }
    return None;
  }

  /** The inner scan of the position search, stopping at the first active
      enemy that is too close. */
  method IsClear(enemies: seq<Enemy>, px: real, py: real, width: real, height: real) returns (ok: bool)
    ensures ok <==> Clear(enemies, px, py, width, height)
  {
    var j := 0;
    while j < |enemies|
      invariant 0 <= j <= |enemies|
      invariant forall i :: 0 <= i < j ==> !Blocks(enemies[i], px, py, width, height)
    {
      if Blocks(enemies[j], px, py, width, height) {
        return false;
      }
      j := j + 1;
    }
    return true;
  }
}
